=== FILE: README.md ===
# A verified model of the multi-line record parser

`csv_parser.py` reads a custom record format. Records are comma-separated with seven logical
columns: `id, 负责人 (owner), status, function, question, prepareCode, runCode`. A record may span
several physical lines, and a new record begins at every line that starts with digits followed by a
comma. A column may be wrapped in double quotes, with CSV-style doubled `""` escapes, or fenced in
triple backticks. Either wrapping protects the commas and newlines inside it. The stream yields,
in file order, the cleaned records whose owner column equals a filter name.

The model has these modules:

- `Strings`: Python's `str.strip()`, with its exact `isspace` set. It also holds slices with
  negative bounds (`[1:-1]`, `[3:-3]`) and `sep.join`.
- `Splitter`: `split_respecting_quotes_and_backticks`, as a state-by-state scan (`Scan`, `Step`,
  `Run`, `Split`). Beside it sit an independent lexer (`PlainDelimsFrom`), which reports where
  the plain-context delimiters are, and a reference cut function, `CutFrom`. The theorem
  `SplitIsCutAtPlainDelims` shows the scan cuts the text at exactly the first `k` plain
  delimiters.
- `SplitTheorems`: the properties read off that theorem. These are the part count, the split
  cap, fence and quote opacity, and the round trip through the writer side of the format.
- `Columns`: the writer side. A column is `Plain`, `Quoted` or `Fenced`, and `RenderRow` lays a
  row out. The parser never writes; these definitions are the other half of the round trips.
- `Cleaner`: `clean_code_block_content` and the inline unquoting of the question column.
- `Projector`: the projection of one buffered record (`_process_record_buffer_for_stream`) and its
  list-appending twin (`process_buffered_record`).
- `RecordStream`: the line grouping of `stream_filtered_records`, its characterisation as the
  unique record partition of the lines, and the stream method.

The input file is given as its lines, with the newlines already removed, or as `None` when the
file does not exist. The stream is eager: it returns the sequence of records.

The program's own comments say an escaped `""` pair inside quotes contributes a single quote to
the field: "becomes `"`" at csv_parser.py:43 and "Add one quote" at csv_parser.py:45. The code
appends both characters, one at csv_parser.py:45 and the loop's own one at csv_parser.py:49. The
model follows the code. The split is therefore lossless
(`Splitter.Split`), and the question's doubled quotes are collapsed later, at csv_parser.py:96.

The round trips are stated for well-formed columns (`Columns.WellFormed`). The conditions are
sufficient for a column to read back exactly. They are not necessary, and "## Left out" lists the
inputs they exclude that still read back.

- A bare column holds no delimiter, no quote and no triple backtick. Each of these could change
  how the scan reads the column.
- A quoted column holds no triple backtick. The fence test comes before the quote test
  (csv_parser.py:33), so a triple backtick inside quotes switches fence mode on.
- A fenced body holds no triple backtick and does not end in a backtick. A body ending in a
  backtick runs into the closing marker, which then starts one character early.

Single and double backticks are allowed in every column, bare, quoted or fenced.

## Model

| member | source | states |
|---|---|---|
| Strings.Strip | csv_parser.py:10 | `strip()` returns a contiguous slice of its input that starts and ends with a non-whitespace character, and only whitespace is removed on either side |
| Strings.StripPadded | csv_parser.py:10-13 | any whitespace padding around a value with no whitespace at its ends is removed entirely, and nothing else is removed |
| Strings.DropEnds | csv_parser.py:12 | Python's `s[k:-k]` is the middle of `s` when `s` has at least `2k` characters, and empty when it is shorter |
| Splitter.Step | csv_parser.py:31-62 | one loop iteration keeps every consumed character verbatim. A part is closed only at a delimiter outside quotes and fences while splits remain, and always at one. A fence marker toggles fence mode even inside quotes. Inside a fence a quote changes no mode. Inside quotes an escaped `""` pair is consumed whole and keeps quote mode |
| Splitter.Run | csv_parser.py:31-64 | from any reachable loop state, the finished parts extend the closed ones, and their join is the text read so far followed by the rest of the text. There are at most `max_splits + 1` parts, and exactly one when `max_splits < -1` |
| Splitter.Split | csv_parser.py:17-65 | the result is never empty. Joining the parts with the delimiter gives the input back exactly. There are at most `max_splits + 1` parts, and any negative limit other than `-1` returns the whole text as the only part |
| Strings.FenceAtSlice | csv_parser.py:33 | the character-wise fence test agrees with `` text[i:i+3] == '```' ``, including near the end of the text, where the slice is shorter and never equal |
| Splitter.PlainDelimsFrom | csv_parser.py:33-53 | the positions the lexer reports are increasing, lie inside the text and hold the delimiter |
| Splitter.RunIsCut | csv_parser.py:31-64 | the scan from any reachable state cuts the rest of the text at exactly as many of the next plain delimiters as the split budget allows |
| Splitter.SplitIsCutAtPlainDelims | csv_parser.py:17-65 | the split equals the text cut at its first `min(max_splits, n)` plain-context delimiters (all `n` of them for `-1`, none for a limit below `-1`) |
| SplitTheorems.SplitEmpty | csv_parser.py:23-64 | the empty text gives the single part `""` |
| SplitTheorems.SplitPartCount | csv_parser.py:53-64 | the part count is one more than the number of plain delimiters for `-1`, `min(k, n) + 1` for a limit `k >= 0`, and 1 for any other negative limit |
| SplitTheorems.SplitCapKeepsRest | csv_parser.py:54-59 | a capped split agrees with the unbounded one on its first `k` parts, and its last part is the rest of the unbounded parts joined by the delimiter, so every later delimiter and its content stay in the last part verbatim |
| SplitTheorems.JoinCutFrom | csv_parser.py:55-64 | cutting a text at delimiter positions and joining the pieces with the delimiter is the identity |
| SplitTheorems.FencedSpanIsOpaque | csv_parser.py:33-41 | a fenced span contributes no split position and leaves both modes as they were, whatever the quote mode. Its body may hold single and double backticks, quotes and delimiters, but no triple backtick, and it may not end in a backtick, since that backtick would start the closing marker |
| SplitTheorems.QuotedSpanIsOpaque | csv_parser.py:41-53 | a quoted, escaped span contributes no split position and ends outside quotes, when no quote follows it. Its text may hold delimiters, quotes and single and double backticks, but no triple backtick, which would switch fence mode on inside the quotes |
| SplitTheorems.RowLexing | csv_parser.py:33-53 | in a row of well-formed columns the plain delimiters are exactly the separators between the columns. A bare column holds no delimiter, quote or triple backtick; a quoted column and a fenced body hold no triple backtick, and a fenced body does not end in a backtick |
| SplitTheorems.SplitRenderedRow | csv_parser.py:17-65 | round trip: splitting a row of well-formed plain, quoted and fenced columns, with a cap that allows every split, gives back each column exactly as written. Well-formed is as for `RowLexing`, so single and double backticks are allowed in every column |
| Cleaner.CleanCodeBlock | csv_parser.py:4-15 | the cleaned value never has leading or trailing whitespace. An unfenced value is only stripped. A fenced value of six characters or fewer becomes empty |
| Cleaner.CleanPaddedBlock | csv_parser.py:10-13 | a fenced block with whitespace around it cleans to its `[3:-3]` slice, stripped |
| Cleaner.CleanFencedBlock | csv_parser.py:4-15 | round trip: a fenced block, with any whitespace outside it or just inside the fences, cleans to exactly the code it fences |
| Cleaner.UnescapeQuotes | csv_parser.py:96 | `replace('""', '"')` never lengthens a value, and it leaves a value without quotes unchanged |
| Cleaner.UnescapeEscape | csv_parser.py:96 | undoing CSV escaping with the left-to-right replacement gives back the original text |
| Cleaner.UnescapeFourQuotes | csv_parser.py:96 | the replacement goes left to right without overlaps, so four quotes become two |
| Cleaner.UnquoteQuestion | csv_parser.py:95-98 | a question not both starting and ending with a quote passes through unchanged. A lone quote becomes empty, because `[1:-1]` of it is empty |
| Cleaner.UnquoteQuoted | csv_parser.py:95-98 | round trip: a question wrapped in quotes, with its inner quotes doubled, is given back exactly |
| Projector.AsDict | csv_parser.py:100-106 | the record has exactly the five keys `id`, `负责人`, `question`, `prepareCode`, `runCode`, and the owner is stored under `负责人` |
| Projector.SplitColumns | csv_parser.py:79-81 | the split with six splits has between one and seven parts, and exactly seven when the text has at least six plain delimiters |
| Projector.ProjectText | csv_parser.py:76-106 | a record is produced exactly when there are seven columns and the stripped owner column equals the filter. It then carries the filter as owner, the stripped id, the unquoted stripped question, and the cleaned fifth and sixth columns as code |
| Projector.AppendBufferedRecord | csv_parser.py:112-157 | the existing records are kept unchanged. One record is appended exactly when the projection succeeds, and it is the projected record. Otherwise nothing is appended |
| Projector.ProjectWrittenRecord | csv_parser.py:79-106 | round trip: projecting a record written in the format gives back its id, owner and question exactly and its code stripped when the owner matches the filter, and nothing otherwise. The question and the code may hold quotes, delimiters, newlines and single or double backticks, but no triple backtick, and the code may not end in a backtick |
| Projector.ProjectWrittenBuffer | csv_parser.py:68-106 | round trip for a buffer: whatever lines a written record is laid out over, so long as they join with newlines into the written row, the buffer projects to the record's id, owner and question exactly and its code stripped when the owner matches the filter, and to nothing otherwise |
| RecordStream.RecordStartIsDigitsComma | csv_parser.py:177 | a line starts a record exactly when a non-empty run of digits at its start is followed by a comma |
| RecordStream.GroupFrom | csv_parser.py:186-209 | from an open buffer, the buffers formed concatenate to the buffer followed by the remaining lines. None is empty. Every buffer after the first begins with a record start. No buffer holds a record start after its first line. The first buffer extends the open one |
| RecordStream.Groups | csv_parser.py:183-209 | the buffers of the whole input form a record partition of its lines: in order, they concatenate to the lines, including blank lines and a first line that starts no record |
| RecordStream.GroupsUnique | csv_parser.py:186-204 | the record partition of the lines is unique, and it is the one the loop builds |
| RecordStream.CollectAppend | csv_parser.py:189-209 | projecting buffers in order distributes over concatenation, so each record keeps its place in input order |
| RecordStream.CollectMembers | csv_parser.py:189-209 | a record is yielded exactly when some buffer projects to it |
| RecordStream.GroupAndProject | csv_parser.py:183-209 | the loop with its final flush yields, in order, the projections of the record partition of the lines |
| RecordStream.StreamFilteredRecords | csv_parser.py:164-209 | a missing file yields nothing. Otherwise the stream yields the projections of the partition's buffers, in input order |
| RecordStream.StreamMembers | csv_parser.py:189-209 | a record is yielded exactly when some buffer of the input projects to it, and every yielded record carries the filter under `负责人` |
| RecordStream.StreamIsolation | csv_parser.py:189-197 | a block of lines followed by a record start is grouped and streamed the same as on its own, so a malformed record cannot affect the records after it |

## Left out

- SplitTheorems.QuotedSpanIsOpaque requires the quoted text to hold no triple backtick. Text whose triple backticks come in pairs, such as `a```,```b`, is passed over without a split as well, because the second marker switches fence mode off again inside the quotes. The general condition depends on how the markers interleave with the doubled quotes, and it is not stated.
- SplitTheorems.RowLexing holds for well-formed columns only, and those conditions are sufficient, not necessary. Three kinds of row lex the same way but are excluded. The first is a fenced body ending in one or two backticks: the closing marker starts early and the leftover backticks are read as plain characters. The second is a quoted column with paired triple backticks. The third is a bare column with a balanced pair of quotes, such as `a"x"b`.
- SplitTheorems.SplitRenderedRow excludes the same rows as `RowLexing`, although they split back exactly too.
- Projector.ProjectWrittenRecord excludes the same inputs through `WellFormed`, among them code ending in a backtick and a question holding a pair of triple backticks. The parser projects both back exactly.
- Projector.ProjectWrittenBuffer excludes the same inputs as `ProjectWrittenRecord`.

- File access is not modelled: the existence check, opening the file and reading lines with `rstrip('\n')` (csv_parser.py:179-187). The input is the sequence of lines without their newlines, and a missing file is `None` and yields no records.
- The diagnostics are not modelled: the `print` calls and the line-number bookkeeping used only in messages (csv_parser.py:82, 108, 126-128, 160-161, 184, 197, 200). `_process_record_buffer_for_stream`'s line-number argument is dropped for the same reason.
- The `except Exception` safety nets are not modelled (csv_parser.py:107-110, 159-161). No path through the pure code raises, so a rejected record is `None`.
- Generator laziness and the release of the file handle are not modelled. The stream returns the whole sequence at once.
- The `isinstance(code_str, str)` guard in `clean_code_block_content` is not modelled. Every column is a string here.
- Projector.AppendBufferedRecord returns the extended list instead of appending to its argument in place. Callers see the same list contents.
- RecordStream.RecordStartIsDigitsComma: `\d` is read as the ASCII digits `0`-`9`. Python's `\d` also accepts other Unicode decimal digits.
- Splitter.Split takes the delimiter as one character. Python accepts any string, but only `,` is ever passed.
- `main.py` is not part of this model. It holds the remote execution, the parallel dispatch, the LLM-generated checks and the script writing.
- The record boundary is decided on the raw line, before any quote or fence mode is known. A line inside a fenced code column that starts with digits and a comma therefore starts a new record. The model keeps this behaviour as written, and `RecordStream.Groups` states it.

=== FILE: cleaner.dfy ===
/** Field cleaning: `clean_code_block_content` (csv_parser.py:4-15) for the two code columns and the
    inline unquoting of the question column (csv_parser.py:95-98). */
module Cleaner {
  import opened Strings
  import opened Columns

  /** The stripped value starts and ends with a fence marker (the two may overlap, as in "````"). */
  predicate IsFencedBlock(s: String) {
    StartsWith(s, Fence) && EndsWith(s, Fence)
  }

  /** `clean_code_block_content`: strip, and when the stripped value is fenced, take `[3:-3]` and
      strip again. */
  function CleanCodeBlock(code: String): (r: String)
    ensures IsStripped(r)
    ensures !IsFencedBlock(Strip(code)) ==> r == Strip(code)
    ensures IsFencedBlock(Strip(code)) && |Strip(code)| <= 6 ==> r == []
  {
    var stripped := Strip(code);
    if IsFencedBlock(stripped) then Strip(DropEnds(stripped, 3)) else stripped
  }

  /** A fenced block padded with whitespace cleans to its `[3:-3]` slice, stripped. */
  lemma CleanPaddedBlock(pre: String, block: String, post: String)
    requires AllSpace(pre) && AllSpace(post) && IsStripped(block) && IsFencedBlock(block)
    ensures CleanCodeBlock(pre + block + post) == Strip(DropEnds(block, 3))
  {
    StripPadded(pre, block, post);
  }

  /** Round trip: a fenced block, with any whitespace outside or just inside the fences, cleans
      to its code. */
  lemma CleanFencedBlock(outerPre: String, innerPre: String, code: String, innerPost: String, outerPost: String)
    requires AllSpace(outerPre) && AllSpace(innerPre) && AllSpace(innerPost) && AllSpace(outerPost)
    requires IsStripped(code)
    ensures CleanCodeBlock(outerPre + (Fence + (innerPre + code + innerPost) + Fence) + outerPost) == code
  {
    var inner := innerPre + code + innerPost;
    var block := Fence + inner + Fence;
    assert block[..3] == Fence && block[|block| - 3..] == Fence;
    assert block[3..|block| - 3] == inner;
    CleanPaddedBlock(outerPre, block, outerPost);
    StripPadded(innerPre, code, innerPost);
  }

  /** Python's `s.replace('""', '"')`: left to right, without overlaps, so `""""` becomes `""`. */
  function UnescapeQuotes(s: String): (r: String)
    ensures |r| <= |s|
    ensures NoChar(s, '"') ==> r == s
  {
    if |s| >= 2 && s[0] == '"' && s[1] == '"' then "\"" + UnescapeQuotes(s[2..])
    else if |s| == 0 then []
    else [s[0]] + UnescapeQuotes(s[1..])
  }

  /** Unescaping undoes CSV escaping. */
  lemma {:induction false} UnescapeEscape(raw: String)
    ensures UnescapeQuotes(EscapeQuotes(raw)) == raw
    decreases |raw|
  {
    if |raw| > 0 {
      var rest := EscapeQuotes(raw[1..]);
      UnescapeEscape(raw[1..]);
      if raw[0] == '"' {
        assert EscapeQuotes(raw) == "\"\"" + rest;
        assert (EscapeQuotes(raw))[2..] == rest;
      } else {
        assert EscapeQuotes(raw) == [raw[0]] + rest;
        assert (EscapeQuotes(raw))[1..] == rest;
      }
      assert raw == [raw[0]] + raw[1..];
    }
  }

  /** The pairs are replaced left to right: four quotes become two, not one. */
  lemma UnescapeFourQuotes()
    ensures UnescapeQuotes("\"\"\"\"") == "\"\""
  {
    assert "\"\"\"\""[2..] == "\"\"";
    assert "\"\""[2..] == [];
  }

  /** The question column's cleaning (applied to the stripped column): a value that starts and ends
      with a quote loses one quote at each end (`[1:-1]`) and has its doubled quotes unescaped;
      any other value is kept. */
  function UnquoteQuestion(q: String): (r: String)
    ensures !(StartsWith(q, "\"") && EndsWith(q, "\"")) ==> r == q
    // a lone quote starts and ends with a quote, and `[1:-1]` of it is empty
    ensures q == "\"" ==> r == []
  {
    if StartsWith(q, "\"") && EndsWith(q, "\"") then UnescapeQuotes(DropEnds(q, 1)) else q
  }

  /** Round trip: a quoted and escaped question is given back exactly. */
  lemma UnquoteQuoted(raw: String)
    ensures UnquoteQuestion("\"" + EscapeQuotes(raw) + "\"") == raw
  {
    var q := "\"" + EscapeQuotes(raw) + "\"";
    assert q[..1] == "\"" && q[|q| - 1..] == "\"";
    assert DropEnds(q, 1) == EscapeQuotes(raw);
    UnescapeEscape(raw);
  }
}

=== FILE: columns.dfy ===
/** How a column is written in the record format: left bare, wrapped in double quotes with every
    inner quote doubled (the CSV convention the question column uses), or fenced in triple
    backticks (the code columns). The parser never writes columns; these definitions are the
    other half of the round trips proved about it. */
module Columns {
  import opened Strings

  datatype Column = Plain(text: String) | Quoted(raw: String) | Fenced(body: String)

  /** CSV escaping: every `"` becomes `""`. */
  function EscapeQuotes(raw: String): (r: String)
    ensures |r| >= |raw|
  {
    if |raw| == 0 then []
    else (if raw[0] == '"' then "\"\"" else [raw[0]]) + EscapeQuotes(raw[1..])
  }

  predicate NoChar(s: String, c: char) {
    forall j :: 0 <= j < |s| ==> s[j] != c
  }

  lemma NoCharRest(s: String, c: char)
    requires |s| > 0 && NoChar(s, c)
    ensures NoChar(s[1..], c)
  {
    assert forall j :: 0 <= j < |s| - 1 ==> s[1..][j] == s[j + 1];
  }

  function Render(c: Column): String {
    match c
    case Plain(t) => t
    case Quoted(raw) => "\"" + EscapeQuotes(raw) + "\""
    case Fenced(body) => Fence + body + Fence
  }

  /** `s` holds no fence marker: no three backticks in a row. */
  predicate NoFence(s: String)
    decreases |s|
  {
    |s| < 3 || (!FenceAt(s, 0) && NoFence(s[1..]))
  }

  predicate EndsInBacktick(s: String) {
    |s| > 0 && s[|s| - 1] == '`'
  }

  /** A column the format can carry unambiguously with `delim` between columns: no column holds a
      fence marker, a bare column holds no delimiter or quote, and a fenced body does not end in a
      backtick, which would run into the closing marker. */
  predicate WellFormed(c: Column, delim: char) {
    match c
    case Plain(t) => NoChar(t, delim) && NoChar(t, '"') && NoFence(t)
    case Quoted(raw) => NoFence(raw)
    case Fenced(body) => NoFence(body) && !EndsInBacktick(body)
  }

  /** A string without fence markers keeps none after dropping characters from its front. */
  lemma {:induction false} NoFenceDrop(s: String, k: nat)
    requires NoFence(s) && k <= |s|
    ensures NoFence(s[k..])
    decreases k
  {
    if k > 0 {
      assert NoFence(s[1..]);
      NoFenceDrop(s[1..], k - 1);
      assert s[1..][k - 1..] == s[k..];
    }
  }

  /** One more character in front keeps a string free of fence markers unless it makes a third
      backtick in a row. */
  lemma ConsNoFence(c: char, s: String)
    requires NoFence(s) && (c != '`' || |s| < 2 || s[0] != '`' || s[1] != '`')
    ensures NoFence([c] + s)
  {
    var w := [c] + s;
    assert w[1..] == s;
    if |w| >= 3 {
      assert w[0] == c && w[1] == s[0] && w[2] == s[1];
    }
  }

  /** A fenced body followed by the first two backticks of its closing marker holds no fence
      marker. */
  lemma {:induction false} FenceSafe(body: String)
    requires NoFence(body) && !EndsInBacktick(body)
    ensures NoFence(body + "``")
    decreases |body|
  {
    if |body| > 0 {
      var w := body + "``";
      assert w == [body[0]] + (body[1..] + "``");
      assert NoFence(body[1..]);
      FenceSafe(body[1..]);
      if |body| >= 3 {
        assert w[0] == body[0] && w[1] == body[1] && w[2] == body[2];
      } else {
        assert w[|body| - 1] == body[|body| - 1];
      }
    }
  }

  /** The escaped text (and its closing quote) starts with a backtick only where the raw text
      does, and then continues with the escape of the rest. */
  lemma EscapedLead(raw: String)
    ensures var w := EscapeQuotes(raw) + "\"";
            w[0] == '`' ==> |raw| > 0 && raw[0] == '`' && w[1..] == EscapeQuotes(raw[1..]) + "\""
  {
    if |raw| > 0 && raw[0] == '`' {
      assert EscapeQuotes(raw) + "\"" == ['`'] + (EscapeQuotes(raw[1..]) + "\"");
    }
  }

  /** After a leading backtick of a text without fence markers, the escape of the rest does not
      start with two more backticks. */
  lemma BacktickThenNoPair(raw: String)
    requires NoFence(raw) && |raw| > 0 && raw[0] == '`'
    ensures var w1 := EscapeQuotes(raw[1..]) + "\"";
            !(|w1| >= 2 && w1[0] == '`' && w1[1] == '`')
  {
    var w1 := EscapeQuotes(raw[1..]) + "\"";
    EscapedLead(raw[1..]);
    if |w1| >= 2 && w1[0] == '`' {
      assert raw[1..][1..] == raw[2..];
      EscapedLead(raw[2..]);
    }
  }

  /** Escaping adds no fence marker, and neither does the closing quote. */
  lemma {:induction false} EscapedNoFence(raw: String)
    requires NoFence(raw)
    ensures NoFence(EscapeQuotes(raw) + "\"")
    decreases |raw|
  {
    if |raw| > 0 {
      var c := raw[0];
      var w1 := EscapeQuotes(raw[1..]) + "\"";
      assert NoFence(raw[1..]);
      EscapedNoFence(raw[1..]);
      if c == '"' {
        ConsNoFence('"', w1);
        ConsNoFence('"', ['"'] + w1);
        assert EscapeQuotes(raw) + "\"" == ['"'] + (['"'] + w1);
      } else {
        if c == '`' {
          BacktickThenNoPair(raw);
        }
        ConsNoFence(c, w1);
        assert EscapeQuotes(raw) + "\"" == [c] + w1;
      }
    }
  }

  /** The rendered columns, in order. */
  function RenderAll(cols: seq<Column>): (r: seq<String>)
    ensures |r| == |cols|
  {
    if |cols| == 0 then [] else [Render(cols[0])] + RenderAll(cols[1..])
  }

  /** Each rendered column is the rendering of the column in the same place. */
  lemma {:induction false} RenderAllAt(cols: seq<Column>)
    ensures forall j :: 0 <= j < |cols| ==> RenderAll(cols)[j] == Render(cols[j])
    decreases |cols|
  {
    if |cols| > 0 {
      RenderAllAt(cols[1..]);
      assert forall j :: 1 <= j < |cols| ==> RenderAll(cols)[j] == RenderAll(cols[1..])[j - 1] && cols[1..][j - 1] == cols[j];
    }
  }

  /** One record's text: its rendered columns joined by the delimiter. */
  function RenderRow(cols: seq<Column>, delim: char): String {
    JoinWith(RenderAll(cols), [delim])
  }
}

=== FILE: projector.dfy ===
/** Record projection: `_process_record_buffer_for_stream` (csv_parser.py:68-110) and its
    list-appending twin `process_buffered_record` (csv_parser.py:112-161). A buffered record's lines
    are joined with newlines, split into at most seven columns
    `id, owner, status, function, question, prepareCode, runCode`, filtered on the owner column and
    cleaned; status and function are read but dropped. */
module Projector {
  import opened Wrappers
  import opened Strings
  import opened Columns
  import opened Splitter
  import opened SplitTheorems
  import opened Cleaner

  /** The five-entry record the stream yields. */
  datatype Record = Record(id: String, owner: String, question: String, prepareCode: String, runCode: String)

  /** The dictionary key of the owner column in the source's records. */
  const OwnerKey: String := "负责人"

  const Delimiter: char := ','

  /** Six splits give the seven columns; later commas stay in the run-code column. */
  const MaxSplits: int := 6

  const ColumnCount: nat := 7

  /** The record as the dictionary the source builds. */
  function AsDict(r: Record): (d: map<String, String>)
    ensures d.Keys == {"id", OwnerKey, "question", "prepareCode", "runCode"}
    ensures d[OwnerKey] == r.owner && d["id"] == r.id
  {
    map["id" := r.id, OwnerKey := r.owner, "question" := r.question,
        "prepareCode" := r.prepareCode, "runCode" := r.runCode]
  }

  /** The columns of one record's text. */
  function SplitColumns(text: String): (parts: seq<String>)
    ensures 1 <= |parts| <= ColumnCount
    ensures |parts| == ColumnCount <==> |PlainDelims(text, Delimiter)| >= MaxSplits
  {
    SplitPartCount(text, Delimiter, MaxSplits);
    Split(text, Delimiter, MaxSplits)
  }

  /** Projection of a record's joined text: `None` when it has fewer than seven columns or when its
      stripped owner column is not exactly `filter`; otherwise the cleaned record. */
  function ProjectText(text: String, filter: String): (r: Option<Record>)
    ensures var parts := SplitColumns(text);
            r.Some? <==> |parts| == ColumnCount && Strip(parts[1]) == filter
    ensures r.Some? ==> var parts := SplitColumns(text);
            && r.value.owner == filter
            && r.value.id == Strip(parts[0])
            && r.value.question == UnquoteQuestion(Strip(parts[4]))
            && r.value.prepareCode == CleanCodeBlock(parts[5])
            && r.value.runCode == CleanCodeBlock(parts[6])
  {
    var parts := SplitColumns(text);
    if |parts| < ColumnCount then None
    else
      var id := Strip(parts[0]);
      var owner := Strip(parts[1]);
      var question := Strip(parts[4]);
      var prepareCode := Strip(parts[5]);
      var runCode := Strip(parts[6]);
      if owner != filter then None
      else
        CleanStripped(parts[5]);
        CleanStripped(parts[6]);
        Some(Record(id, owner, UnquoteQuestion(question), CleanCodeBlock(prepareCode), CleanCodeBlock(runCode)))
  }

  /** Cleaning starts by stripping, so stripping first changes nothing. */
  lemma CleanStripped(code: String)
    ensures CleanCodeBlock(Strip(code)) == CleanCodeBlock(code)
  {
    StripStripped(Strip(code));
  }

  /** `_process_record_buffer_for_stream`: an empty buffer gives `None`; otherwise the buffer's
      lines are joined with newlines and projected. */
  function ProjectBuffer(buffer: seq<String>, filter: String): Option<Record> {
    if |buffer| == 0 then None else ProjectText(JoinWith(buffer, "\n"), filter)
  }

  /** `process_buffered_record`: the same projection, appending the record (or nothing) to the
      list so far, which it leaves as it was. */
  method AppendBufferedRecord(buffer: seq<String>, allRecords: seq<Record>, filter: String)
    returns (updated: seq<Record>)
    ensures |allRecords| <= |updated| <= |allRecords| + 1 && updated[..|allRecords|] == allRecords
    ensures |updated| == |allRecords| + 1 <==> ProjectBuffer(buffer, filter).Some?
    ensures |updated| == |allRecords| + 1 ==> updated[|allRecords|] == ProjectBuffer(buffer, filter).value
  {
    updated := allRecords;
    if |buffer| == 0 {
      return;
    }
    var text := JoinWith(buffer, "\n");
    var parts := Split(text, Delimiter, MaxSplits);
    ProjectedFields(text, filter);
    if |parts| < ColumnCount {
      return;
    }
    var id := Strip(parts[0]);
    var owner := Strip(parts[1]);
    var questionRaw := Strip(parts[4]);
    var prepareRaw := Strip(parts[5]);
    var runRaw := Strip(parts[6]);
    if owner != filter {
      return;
    }
    var question := if StartsWith(questionRaw, "\"") && EndsWith(questionRaw, "\"")
                    then UnescapeQuotes(DropEnds(questionRaw, 1))
                    else questionRaw;
    assert question == UnquoteQuestion(questionRaw);
    CleanStripped(parts[5]);
    CleanStripped(parts[6]);
    var record := Record(id, owner, question, CleanCodeBlock(prepareRaw), CleanCodeBlock(runRaw));
    assert ProjectBuffer(buffer, filter) == Some(record);
    updated := allRecords + [record];
  }

  /** A fenced block with no surrounding whitespace cleans to its body, stripped. */
  lemma CleanFenced(body: String)
    ensures CleanCodeBlock(Fence + body + Fence) == Strip(body)
  {
    var block := Fence + body + Fence;
    assert block[0] == '`' && block[|block| - 1] == '`';
    assert block[..3] == Fence && block[|block| - 3..] == Fence;
    assert block[3..|block| - 3] == body;
    CleanPaddedBlock([], block, []);
    assert [] + block + [] == block;
  }

  /** The seven columns of a record as the format writes them. */
  function RecordColumns(id: String, owner: String, status: String, funcName: String,
                         question: String, prepareCode: String, runCode: String): seq<Column>
  {
    [Plain(id), Plain(owner), Plain(status), Plain(funcName), Quoted(question), Fenced(prepareCode), Fenced(runCode)]
  }

  /** The columns of a written record are its rendered columns. */
  lemma WrittenRecordColumns(cols: seq<Column>)
    requires |cols| == ColumnCount
    requires forall j :: 0 <= j < |cols| ==> WellFormed(cols[j], Delimiter)
    ensures SplitColumns(RenderRow(cols, Delimiter)) == RenderAll(cols)
  {
    SplitRenderedRow(cols, Delimiter, MaxSplits);
  }

  /** The seven columns a written record splits into. */
  lemma WrittenParts(id: String, owner: String, status: String, funcName: String,
                     question: String, prepareCode: String, runCode: String)
    requires forall t :: t in [id, owner, status, funcName] ==> WellFormed(Plain(t), Delimiter)
    requires WellFormed(Quoted(question), Delimiter)
    requires WellFormed(Fenced(prepareCode), Delimiter) && WellFormed(Fenced(runCode), Delimiter)
    ensures var parts := SplitColumns(RenderRow(RecordColumns(id, owner, status, funcName, question, prepareCode, runCode), Delimiter));
            && |parts| == ColumnCount
            && parts[0] == id && parts[1] == owner
            && parts[4] == Render(Quoted(question))
            && parts[5] == Fence + prepareCode + Fence && parts[6] == Fence + runCode + Fence
  {
    var cols := RecordColumns(id, owner, status, funcName, question, prepareCode, runCode);
    assert WellFormed(cols[0], Delimiter) && WellFormed(cols[1], Delimiter);
    assert WellFormed(cols[2], Delimiter) && WellFormed(cols[3], Delimiter);
    WrittenRecordColumns(cols);
    RenderAllAt(cols);
  }

  /** A written question, stripped and unquoted, is the question itself. */
  lemma WrittenQuestion(question: String)
    ensures UnquoteQuestion(Strip(Render(Quoted(question)))) == question
  {
    var q := Render(Quoted(question));
    assert q[0] == '"' && q[|q| - 1] == '"';
    StripStripped(q);
    UnquoteQuoted(question);
  }

  /** Round trip: projecting a written record gives back its id, owner and question exactly and
      its code stripped, when the owner matches the filter, and nothing otherwise. */
  lemma ProjectWrittenRecord(id: String, owner: String, status: String, funcName: String,
                             question: String, prepareCode: String, runCode: String, filter: String)
    requires forall t :: t in [id, owner, status, funcName] ==> WellFormed(Plain(t), Delimiter)
    requires IsStripped(id) && IsStripped(owner)
    requires WellFormed(Quoted(question), Delimiter)
    requires WellFormed(Fenced(prepareCode), Delimiter) && WellFormed(Fenced(runCode), Delimiter)
    ensures var text := RenderRow(RecordColumns(id, owner, status, funcName, question, prepareCode, runCode), Delimiter);
            ProjectText(text, filter)
            == if owner == filter then Some(Record(id, owner, question, Strip(prepareCode), Strip(runCode))) else None
  {
    var text := RenderRow(RecordColumns(id, owner, status, funcName, question, prepareCode, runCode), Delimiter);
    WrittenParts(id, owner, status, funcName, question, prepareCode, runCode);
    StripStripped(id);
    StripStripped(owner);
    WrittenQuestion(question);
    CleanFenced(prepareCode);
    CleanFenced(runCode);
    ProjectedFields(text, filter);
  }

  /** Round trip over lines: a written record, however its text is broken into the lines of a
      buffer, is projected from that buffer as from its text. The lines may break the text
      anywhere. */
  lemma ProjectWrittenBuffer(lines: seq<String>, id: String, owner: String, status: String, funcName: String,
                             question: String, prepareCode: String, runCode: String, filter: String)
    requires forall t :: t in [id, owner, status, funcName] ==> WellFormed(Plain(t), Delimiter)
    requires IsStripped(id) && IsStripped(owner)
    requires WellFormed(Quoted(question), Delimiter)
    requires WellFormed(Fenced(prepareCode), Delimiter) && WellFormed(Fenced(runCode), Delimiter)
    requires JoinWith(lines, "\n") == RenderRow(RecordColumns(id, owner, status, funcName, question, prepareCode, runCode), Delimiter)
    ensures ProjectBuffer(lines, filter)
            == if owner == filter then Some(Record(id, owner, question, Strip(prepareCode), Strip(runCode))) else None
  {
    WrittenParts(id, owner, status, funcName, question, prepareCode, runCode);
    if |lines| == 0 {
      SplitEmpty(Delimiter, MaxSplits);
      assert false;
    }
    ProjectWrittenRecord(id, owner, status, funcName, question, prepareCode, runCode, filter);
  }

  /** The projection of a text, when it succeeds, is the record of its cleaned fields. */
  lemma ProjectedFields(text: String, filter: String)
    ensures var parts := SplitColumns(text);
            ProjectText(text, filter)
            == if |parts| == ColumnCount && Strip(parts[1]) == filter
               then Some(Record(Strip(parts[0]), filter, UnquoteQuestion(Strip(parts[4])),
                                CleanCodeBlock(parts[5]), CleanCodeBlock(parts[6])))
               else None
  {
  }
}

=== FILE: record_stream.dfy ===
/** The record stream `stream_filtered_records` (csv_parser.py:164-209): lines are grouped into
    buffers, a line matching `^\d+,` closing the open buffer when one is open, and each buffer is
    projected in order. The file is given as its lines with the newlines already removed, or as
    `None` when it does not exist. */
module RecordStream {
  import opened Wrappers
  import opened Strings
  import opened Projector

  predicate IsDigit(c: char) {
    '0' <= c <= '9'
  }

  /** The number of digits at the start of `line`. */
  function LeadingDigits(line: String): (n: nat)
    ensures n <= |line|
    ensures forall j :: 0 <= j < n ==> IsDigit(line[j])
    ensures n == |line| || !IsDigit(line[n])
  {
    if |line| == 0 || !IsDigit(line[0]) then 0
    else
      var n := 1 + LeadingDigits(line[1..]);
      assert forall j :: 1 <= j < n ==> line[j] == line[1..][j - 1];
      n
  }

  /** `re.match(r"^\d+,", line)`: one or more digits, then a comma. */
  predicate IsRecordStart(line: String) {
    var n := LeadingDigits(line);
    0 < n < |line| && line[n] == ','
  }

  /** The regular expression's meaning: some non-empty run of digits at the start is followed by a
      comma. */
  lemma RecordStartIsDigitsComma(line: String)
    ensures IsRecordStart(line)
            <==> exists k :: 0 < k < |line| && line[k] == ',' && (forall j :: 0 <= j < k ==> IsDigit(line[j]))
  {
    var n := LeadingDigits(line);
    if IsRecordStart(line) {
      assert 0 < n < |line| && line[n] == ',';
    }
    if k :| 0 < k < |line| && line[k] == ',' && (forall j :: 0 <= j < k ==> IsDigit(line[j])) {
      assert !IsDigit(line[k]);
      assert n == k;
    }
  }

  /** The lines of a sequence of buffers, in order. */
  function Flatten(buffers: seq<seq<String>>): seq<String> {
    if |buffers| == 0 then [] else buffers[0] + Flatten(buffers[1..])
  }

  /** The buffers split `lines` as the stream does: they concatenate to the lines, none is empty,
      every buffer after the first begins with a record start, and no line after the first of a
      buffer is a record start. */
  predicate IsRecordPartition(lines: seq<String>, buffers: seq<seq<String>>) {
    && Flatten(buffers) == lines
    && (forall b :: 0 <= b < |buffers| ==> |buffers[b]| > 0)
    && (forall b :: 0 < b < |buffers| ==> IsRecordStart(buffers[b][0]))
    && (forall b, t :: 0 <= b < |buffers| && 0 < t < |buffers[b]| ==> !IsRecordStart(buffers[b][t]))
  }

  /** No line after the first is a record start. */
  predicate NoInnerStart(buffer: seq<String>) {
    forall t :: 0 < t < |buffer| ==> !IsRecordStart(buffer[t])
  }

  /** The loop over the lines with `open` as the buffer so far, then the final flush. */
  function GroupFrom(lines: seq<String>, open: seq<String>): (buffers: seq<seq<String>>)
    requires NoInnerStart(open)
    ensures Flatten(buffers) == open + lines
    ensures forall b :: 0 <= b < |buffers| ==> |buffers[b]| > 0
    ensures forall b :: 0 < b < |buffers| ==> IsRecordStart(buffers[b][0])
    ensures forall b :: 0 <= b < |buffers| ==> NoInnerStart(buffers[b])
    ensures |open| > 0 ==> |buffers| > 0 && |buffers[0]| >= |open| && buffers[0][..|open|] == open
    decreases |lines|
  {
    if |lines| == 0 then
      if |open| > 0 then [open] else []
    else if IsRecordStart(lines[0]) && |open| > 0 then
      var rest := GroupFrom(lines[1..], [lines[0]]);
      assert lines == [lines[0]] + lines[1..];
      ConsBuffer(open, lines[0], lines[1..], rest);
      [open] + rest
    else
      assert lines == [lines[0]] + lines[1..];
      var open' := open + [lines[0]];
      ExtendOpen(open, lines[0]);
      var rest := GroupFrom(lines[1..], open');
      ExtendPrefix(open, lines[0], lines[1..], rest);
      rest
  }

  /** Closing `open` in front of the buffers the rest of the lines form keeps their shape. */
  lemma ConsBuffer(open: seq<String>, x: String, rest: seq<String>, later: seq<seq<String>>)
    requires |open| > 0 && NoInnerStart(open) && IsRecordStart(x)
    requires Flatten(later) == [x] + rest
    requires forall b :: 0 <= b < |later| ==> |later[b]| > 0
    requires forall b :: 0 < b < |later| ==> IsRecordStart(later[b][0])
    requires forall b :: 0 <= b < |later| ==> NoInnerStart(later[b])
    requires |later| > 0 && |later[0]| >= 1 && later[0][..1] == [x]
    ensures Flatten([open] + later) == open + ([x] + rest)
    ensures forall b :: 0 <= b < |[open] + later| ==> |([open] + later)[b]| > 0
    ensures forall b :: 0 < b < |[open] + later| ==> IsRecordStart(([open] + later)[b][0])
    ensures forall b :: 0 <= b < |[open] + later| ==> NoInnerStart(([open] + later)[b])
  {
    var gs := [open] + later;
    assert gs[1..] == later;
    assert later[0][0] == x;
    forall b | 0 < b < |gs|
      ensures |gs[b]| > 0 && IsRecordStart(gs[b][0]) && NoInnerStart(gs[b])
    {
      assert gs[b] == later[b - 1];
    }
  }

  /** A line that does not close `open` extends it without a record start inside. */
  lemma ExtendOpen(open: seq<String>, x: String)
    requires NoInnerStart(open) && !(IsRecordStart(x) && |open| > 0)
    ensures NoInnerStart(open + [x])
  {
    assert forall t :: 0 < t < |open| ==> (open + [x])[t] == open[t];
  }

  /** A first buffer that begins with `open` and one more line begins with `open`. */
  lemma ExtendPrefix(open: seq<String>, x: String, rest: seq<String>, later: seq<seq<String>>)
    requires |later| > 0 && |later[0]| >= |open + [x]| && later[0][..|open + [x]|] == open + [x]
    ensures (open + [x]) + rest == open + ([x] + rest)
    ensures |later[0]| >= |open| && later[0][..|open|] == open
  {
    assert later[0][..|open|] == later[0][..|open + [x]|][..|open|];
  }

  /** The buffers the stream forms from the whole input, starting with no buffer open. */
  function Groups(lines: seq<String>): (buffers: seq<seq<String>>)
    ensures IsRecordPartition(lines, buffers)
  {
    var buffers := GroupFrom(lines, []);
    assert forall b, t :: 0 <= b < |buffers| && 0 < t < |buffers[b]| ==> !IsRecordStart(buffers[b][t]) by {
      forall b, t | 0 <= b < |buffers| && 0 < t < |buffers[b]| ensures !IsRecordStart(buffers[b][t]) {
        assert NoInnerStart(buffers[b]);
      }
    }
    assert [] + lines == lines;
    buffers
  }

  lemma {:induction false} FlattenAppend(xs: seq<seq<String>>, ys: seq<seq<String>>)
    ensures Flatten(xs + ys) == Flatten(xs) + Flatten(ys)
    decreases |xs|
  {
    if |xs| > 0 {
      assert (xs + ys)[1..] == xs[1..] + ys;
      FlattenAppend(xs[1..], ys);
    } else {
      assert xs + ys == ys;
    }
  }

  /** Any partition whose first buffer begins with `open` is the one the loop builds from `open`. */
  lemma {:induction false} GroupFromUnique(lines: seq<String>, open: seq<String>, buffers: seq<seq<String>>)
    requires NoInnerStart(open)
    requires IsRecordPartition(open + lines, buffers)
    requires |open| > 0 ==> |buffers| > 0 && |buffers[0]| >= |open| && buffers[0][..|open|] == open
    ensures buffers == GroupFrom(lines, open)
    decreases |lines|
  {
    if |lines| == 0 {
      FlushUnique(open, buffers);
    } else {
      var x := lines[0];
      var rest := lines[1..];
      assert lines == [x] + rest;
      if IsRecordStart(x) && |open| > 0 {
        CloseUnique(x, rest, open, buffers);
        GroupFromUnique(rest, [x], buffers[1..]);
        CloseStepGroups(x, rest, open);
      } else {
        ExtendUnique(x, rest, open, buffers);
        GroupFromUnique(rest, open + [x], buffers);
        ExtendStep(x, rest, open);
      }
    }
  }

  /** With no lines left, a partition of `open` is `open` alone, or nothing when it is empty. */
  lemma FlushUnique(open: seq<String>, buffers: seq<seq<String>>)
    requires IsRecordPartition(open + [], buffers)
    requires |open| > 0 ==> |buffers| > 0 && |buffers[0]| >= |open| && buffers[0][..|open|] == open
    ensures buffers == if |open| > 0 then [open] else []
  {
    assert open + [] == open;
    if |buffers| > 0 {
      assert Flatten(buffers) == buffers[0] + Flatten(buffers[1..]);
    }
    if |open| > 0 {
      assert buffers[0] == open;
      if |buffers| > 1 {
        assert false;
      }
    } else if |buffers| > 0 {
      assert false;
    }
  }

  /** A record start after a non-empty `open` is where the partition's second buffer begins. */
  lemma CloseUnique(x: String, rest: seq<String>, open: seq<String>, buffers: seq<seq<String>>)
    requires IsRecordStart(x) && |open| > 0
    requires IsRecordPartition(open + ([x] + rest), buffers)
    requires |buffers| > 0 && |buffers[0]| >= |open| && buffers[0][..|open|] == open
    ensures buffers == [open] + buffers[1..]
    ensures IsRecordPartition([x] + rest, buffers[1..])
    ensures |buffers[1..]| > 0 && |buffers[1..][0]| >= 1 && buffers[1..][0][..1] == [x]
  {
    var lines := [x] + rest;
    // the open buffer cannot run on into `x`, a record start
    FirstBufferRunsOn(open, lines, buffers);
    if |buffers[0]| > |open| {
      assert false;
    }
    assert buffers[0] == open;
    var tail := buffers[1..];
    assert Flatten(buffers) == buffers[0] + Flatten(tail);
    assert Flatten(tail) == (open + lines)[|open|..] == lines;
    assert |tail| > 0;
    assert tail[0] == buffers[1] && |tail[0]| > 0;
    assert Flatten(tail) == tail[0] + Flatten(tail[1..]);
    assert tail[0][0] == lines[0] == x;
    assert tail[0][..1] == [x];
    assert forall b :: 0 <= b < |tail| ==> tail[b] == buffers[b + 1];
  }

  /** A line that is no record start, or that opens the first buffer, extends the first buffer. */
  lemma ExtendUnique(x: String, rest: seq<String>, open: seq<String>, buffers: seq<seq<String>>)
    requires NoInnerStart(open) && !(IsRecordStart(x) && |open| > 0)
    requires IsRecordPartition(open + ([x] + rest), buffers)
    requires |open| > 0 ==> |buffers| > 0 && |buffers[0]| >= |open| && buffers[0][..|open|] == open
    ensures NoInnerStart(open + [x])
    ensures IsRecordPartition((open + [x]) + rest, buffers)
    ensures |buffers| > 0 && |buffers[0]| >= |open + [x]| && buffers[0][..|open + [x]|] == open + [x]
  {
    var lines := [x] + rest;
    var open' := open + [x];
    ExtendOpen(open, x);
    assert open + lines == open' + rest;
    assert |Flatten(buffers)| > 0;
    assert Flatten(buffers) == buffers[0] + Flatten(buffers[1..]);
    if |open| == 0 {
      assert buffers[0][0] == (open + lines)[0] == x;
      assert buffers[0][..1] == [x];
    } else {
      // `x` cannot begin a second buffer, since it is no record start
      if |buffers[0]| == |open| {
        assert false;
      }
      assert buffers[0][|open|] == (open + lines)[|open|] == x;
      assert buffers[0][..|open'|] == open';
    }
  }

  /** The loop's closing step, read on the buffers: `open` is closed and `x` starts the next. */
  lemma CloseStepGroups(x: String, rest: seq<String>, open: seq<String>)
    requires NoInnerStart(open) && IsRecordStart(x) && |open| > 0
    ensures GroupFrom([x] + rest, open) == [open] + GroupFrom(rest, [x])
  {
    assert ([x] + rest)[1..] == rest;
  }

  /** A first buffer longer than `open` continues with the first of `lines`. */
  lemma FirstBufferRunsOn(open: seq<String>, lines: seq<String>, buffers: seq<seq<String>>)
    requires Flatten(buffers) == open + lines
    requires |buffers| > 0 && |buffers[0]| >= |open| && buffers[0][..|open|] == open
    ensures |buffers[0]| > |open| ==> |lines| > 0 && buffers[0][|open|] == lines[0]
  {
    assert Flatten(buffers) == buffers[0] + Flatten(buffers[1..]);
    if |buffers[0]| > |open| {
      assert buffers[0][|open|] == (open + lines)[|open|];
    }
  }

  /** The record partition of the lines is unique, and it is the one the stream forms. */
  lemma GroupsUnique(lines: seq<String>, buffers: seq<seq<String>>)
    requires IsRecordPartition(lines, buffers)
    ensures buffers == Groups(lines)
  {
    assert [] + lines == lines;
    GroupFromUnique(lines, [], buffers);
  }

  /** The records the buffers project to, in order, skipping the rejected ones. */
  function Collect(buffers: seq<seq<String>>, project: seq<String> -> Option<Record>): (records: seq<Record>)
    ensures |records| <= |buffers|
    decreases |buffers|
  {
    if |buffers| == 0 then []
    else
      var rest := Collect(buffers[1..], project);
      match project(buffers[0])
      case None => rest
      case Some(r) => [r] + rest
  }

  lemma {:induction false} CollectAppend(xs: seq<seq<String>>, ys: seq<seq<String>>, project: seq<String> -> Option<Record>)
    ensures Collect(xs + ys, project) == Collect(xs, project) + Collect(ys, project)
    decreases |xs|
  {
    if |xs| > 0 {
      assert (xs + ys)[1..] == xs[1..] + ys;
      CollectAppend(xs[1..], ys, project);
    } else {
      assert xs + ys == ys;
    }
  }

  /** A record is collected exactly when some buffer projects to it. */
  lemma {:induction false} CollectMembers(buffers: seq<seq<String>>, project: seq<String> -> Option<Record>, r: Record)
    ensures r in Collect(buffers, project) <==> exists b :: 0 <= b < |buffers| && project(buffers[b]) == Some(r)
    decreases |buffers|
  {
    if |buffers| > 0 {
      var tail := buffers[1..];
      CollectMembers(tail, project, r);
      if exists b :: 0 <= b < |buffers| && project(buffers[b]) == Some(r) {
        var b :| 0 <= b < |buffers| && project(buffers[b]) == Some(r);
        if b > 0 {
          assert tail[b - 1] == buffers[b];
        }
      }
      if exists b :: 0 <= b < |tail| && project(tail[b]) == Some(r) {
        var b :| 0 <= b < |tail| && project(tail[b]) == Some(r);
        assert buffers[b + 1] == tail[b];
      }
    }
  }

  /** `_process_record_buffer_for_stream` with the filter fixed. */
  function Projection(filter: String): seq<String> -> Option<Record> {
    buffer => ProjectBuffer(buffer, filter)
  }

  /** The stream as a function of the file's lines. */
  function StreamRecords(lines: seq<String>, filter: String): seq<Record> {
    Collect(Groups(lines), Projection(filter))
  }

  /** The records of a single buffer. */
  lemma CollectOne(buffer: seq<String>, project: seq<String> -> Option<Record>)
    ensures Collect([buffer], project) == if project(buffer).Some? then [project(buffer).value] else []
  {
    assert [buffer][1..] == [];
  }

  /** A record start after a non-empty buffer closes it: the buffer's records come first. */
  lemma {:induction false} CloseStep(x: String, rest: seq<String>, open: seq<String>, project: seq<String> -> Option<Record>)
    requires NoInnerStart(open) && IsRecordStart(x) && |open| > 0
    ensures Collect(GroupFrom([x] + rest, open), project) == Collect([open], project) + Collect(GroupFrom(rest, [x]), project)
  {
    assert ([x] + rest)[1..] == rest;
    CollectAppend([open], GroupFrom(rest, [x]), project);
  }

  /** Any other line joins the open buffer. */
  lemma ExtendStep(x: String, rest: seq<String>, open: seq<String>)
    requires NoInnerStart(open) && !(IsRecordStart(x) && |open| > 0)
    ensures NoInnerStart(open + [x])
    ensures GroupFrom([x] + rest, open) == GroupFrom(rest, open + [x])
  {
    assert ([x] + rest)[1..] == rest;
    ExtendOpen(open, x);
  }

  /** One closing step of the loop: the records so far, then the closed buffer's record if it
      has one, then whatever the rest of the lines yields after the new record start. */
  lemma CloseAdvance(records: seq<Record>, x: String, rest: seq<String>, open: seq<String>, project: seq<String> -> Option<Record>)
    requires NoInnerStart(open) && IsRecordStart(x) && |open| > 0
    ensures project(open).Some? ==> records + Collect(GroupFrom([x] + rest, open), project)
                                    == (records + [project(open).value]) + Collect(GroupFrom(rest, [x]), project)
    ensures project(open).None? ==> records + Collect(GroupFrom([x] + rest, open), project)
                                    == records + Collect(GroupFrom(rest, [x]), project)
  {
    CloseStep(x, rest, open, project);
    CollectOne(open, project);
    var later := Collect(GroupFrom(rest, [x]), project);
    if project(open).Some? {
      assert records + ([project(open).value] + later) == (records + [project(open).value]) + later;
    } else {
      assert records + ([] + later) == records + later;
    }
  }

  /** The final flush: what is left in the buffer yields its record, if any. */
  lemma FlushAdvance(records: seq<Record>, open: seq<String>, project: seq<String> -> Option<Record>)
    requires NoInnerStart(open)
    ensures |open| > 0 && project(open).Some? ==>
              records + Collect(GroupFrom([], open), project) == records + [project(open).value]
    ensures !(|open| > 0 && project(open).Some?) ==> records + Collect(GroupFrom([], open), project) == records
  {
    CollectOne(open, project);
    if |open| == 0 {
      assert records + [] == records;
    }
  }

  /** The loop of `stream_filtered_records` with the per-buffer processing as a parameter: lines
      are buffered, a record start closes a non-empty buffer, and the last buffer is flushed. */
  method GroupAndProject(lines: seq<String>, project: seq<String> -> Option<Record>) returns (records: seq<Record>)
    ensures records == Collect(Groups(lines), project)
  {
    records := [];
    ghost var whole := Collect(GroupFrom(lines, []), project);
    var buffer: seq<String> := [];
    assert lines[0..] == lines;
    for n := 0 to |lines|
      invariant NoInnerStart(buffer)
      invariant records + Collect(GroupFrom(lines[n..], buffer), project) == whole
    {
      var line := lines[n];
      ghost var rest := lines[n + 1..];
      assert lines[n..] == [line] + rest;
      if IsRecordStart(line) && |buffer| > 0 {
        CloseAdvance(records, line, rest, buffer, project);
        var processed := project(buffer);
        if processed.Some? {
          records := records + [processed.value];
        }
        buffer := [line];
      } else {
        ExtendStep(line, rest, buffer);
        buffer := buffer + [line];
      }
    }
    assert lines[|lines|..] == [];
    FlushAdvance(records, buffer, project);
    if |buffer| > 0 {
      var processed := project(buffer);
      if processed.Some? {
        records := records + [processed.value];
      }
    }
  }

  /** `stream_filtered_records`, run to exhaustion: the records, in input order, of every buffer
      that `_process_record_buffer_for_stream` accepts, and none for a missing file. */
  method StreamFilteredRecords(source: Option<seq<String>>, filter: String) returns (records: seq<Record>)
    ensures source.None? ==> records == []
    ensures source.Some? ==> records == StreamRecords(source.value, filter)
  {
    records := [];
    if source.Some? {
      records := GroupAndProject(source.value, Projection(filter));
    }
  }

  /** A record is yielded exactly when some buffer of the input projects to it; every record
      yielded carries the filter under the owner key. */
  lemma StreamMembers(lines: seq<String>, filter: String, r: Record)
    ensures r in StreamRecords(lines, filter)
            <==> exists b :: 0 <= b < |Groups(lines)| && ProjectBuffer(Groups(lines)[b], filter) == Some(r)
    ensures r in StreamRecords(lines, filter) ==> AsDict(r)[OwnerKey] == filter
  {
    var gs := Groups(lines);
    CollectMembers(gs, Projection(filter), r);
    assert forall b :: 0 <= b < |gs| ==> Projection(filter)(gs[b]) == ProjectBuffer(gs[b], filter);
  }

  /** Two partitions side by side partition the joined lines when the second starts a record. */
  lemma PartitionAppend(first: seq<String>, later: seq<String>, gf: seq<seq<String>>, gl: seq<seq<String>>)
    requires IsRecordPartition(first, gf) && IsRecordPartition(later, gl)
    requires |gf| > 0 && (|gl| == 0 || IsRecordStart(gl[0][0]))
    ensures IsRecordPartition(first + later, gf + gl)
  {
    var gs := gf + gl;
    FlattenAppend(gf, gl);
    assert forall b :: 0 <= b < |gf| ==> gs[b] == gf[b];
    assert forall b :: |gf| <= b < |gs| ==> gs[b] == gl[b - |gf|];
  }

  /** Records are isolated: a block of lines closed off by a record start streams the same on its
      own as in front of the rest, whatever its buffers hold. */
  lemma StreamIsolation(first: seq<String>, later: seq<String>, filter: String)
    requires |first| > 0 && (|later| == 0 || IsRecordStart(later[0]))
    ensures Groups(first + later) == Groups(first) + Groups(later)
    ensures StreamRecords(first + later, filter) == StreamRecords(first, filter) + StreamRecords(later, filter)
  {
    var gf := Groups(first);
    var gl := Groups(later);
    assert |gf| > 0;
    if |gl| > 0 {
      assert Flatten(gl) == gl[0] + Flatten(gl[1..]);
      assert gl[0][0] == later[0];
    }
    PartitionAppend(first, later, gf, gl);
    GroupsUnique(first + later, gf + gl);
    CollectAppend(gf, gl, Projection(filter));
  }
}

=== FILE: split_theorems.dfy ===
/** What `split_respecting_quotes_and_backticks` (csv_parser.py:17-65) promises, derived from the
    characterisation `Splitter.SplitIsCutAtPlainDelims`: how many parts it returns, how the split
    cap folds the rest of the text into the last part, which spans are opaque to the delimiter,
    and that it undoes the writing of a row of well-formed columns. */
module SplitTheorems {
  import opened Strings
  import opened Columns
  import opened Splitter

  /** Cutting at delimiter positions and joining back with the delimiter is the identity. */
  lemma {:induction false} JoinCutFrom(text: String, delim: char, start: nat, pre: String, ps: seq<nat>)
    requires start <= |text| && Cuts(text, start, ps) && AtDelims(text, delim, ps)
    ensures JoinWith(CutFrom(text, start, pre, ps), [delim]) == pre + text[start..]
    decreases |ps|
  {
    if |ps| > 0 {
      var a := text[start..ps[0]];
      var t := text[ps[0] + 1..];
      var tail := CutFrom(text, ps[0] + 1, [], ps[1..]);
      JoinCutFrom(text, delim, ps[0] + 1, [], ps[1..]);
      JoinCons(pre + a, tail, [delim]);
      TextAround(text, start, ps[0], pre);
    }
  }

  /** The text from `start` is the part before position `i`, the character at `i` and the rest. */
  lemma TextAround(text: String, start: nat, i: nat, pre: String)
    requires start <= i < |text|
    ensures pre + text[start..] == pre + text[start..i] + [text[i]] + ([] + text[i + 1..])
  {
    assert text[start..] == text[start..i] + ([text[i]] + text[i + 1..]);
    Assoc(pre, text[start..i], [text[i]] + text[i + 1..]);
    Assoc(pre + text[start..i], [text[i]], text[i + 1..]);
  }

  /** The empty text splits into one empty part, whatever the split limit. */
  lemma SplitEmpty(delim: char, maxSplits: int)
    ensures Split([], delim, maxSplits) == [[]]
  {
    SplitPartCount([], delim, maxSplits);
  }

  /** The number of parts: one more than the plain delimiters cut at, that is all of them for
      `-1`, at most `maxSplits` of them for `maxSplits >= 0`, and none for other negative values. */
  lemma SplitPartCount(text: String, delim: char, maxSplits: int)
    ensures var n := |PlainDelims(text, delim)|;
            && (maxSplits == -1 ==> |Split(text, delim, maxSplits)| == n + 1)
            && (maxSplits >= 0 ==> |Split(text, delim, maxSplits)| == Min(maxSplits, n) + 1)
            && (maxSplits < -1 ==> |Split(text, delim, maxSplits)| == 1)
  {
    SplitIsCutAtPlainDelims(text, delim, maxSplits);
  }

  /** Cutting at the first `k` positions only: the first `k` pieces are unchanged and the last one
      is everything after them, delimiters included. */
  lemma {:induction false} CutFromPrefix(text: String, delim: char, start: nat, pre: String, ps: seq<nat>, k: nat)
    requires start <= |text| && Cuts(text, start, ps) && AtDelims(text, delim, ps) && k <= |ps|
    ensures Cuts(text, start, ps[..k])
    ensures var full := CutFrom(text, start, pre, ps);
            CutFrom(text, start, pre, ps[..k]) == full[..k] + [JoinWith(full[k..], [delim])]
    decreases k
  {
    CutsPrefix(text, start, ps, k);
    if k == 0 {
      CutFromNoPrefix(text, delim, start, pre, ps);
    } else {
      var ps1 := ps[1..];
      CutFromBoth(text, start, pre, ps, k);
      assert AtDelims(text, delim, ps1);
      CutFromPrefix(text, delim, ps[0] + 1, [], ps1, k - 1);
      PrefixStep(CutFrom(text, start, pre, ps), CutFrom(text, ps[0] + 1, [], ps1),
                 CutFrom(text, start, pre, ps[..k]), CutFrom(text, ps[0] + 1, [], ps1[..k - 1]),
                 pre + text[start..ps[0]], k, delim);
    }
  }

  /** The unbounded cut and the cut at the first `k` positions share their first piece. */
  lemma CutFromBoth(text: String, start: nat, pre: String, ps: seq<nat>, k: nat)
    requires start <= |text| && Cuts(text, start, ps) && 1 <= k <= |ps|
    ensures Cuts(text, start, ps[..k]) && Cuts(text, ps[0] + 1, ps[1..]) && Cuts(text, ps[0] + 1, ps[1..][..k - 1])
    ensures var h := pre + text[start..ps[0]];
            && CutFrom(text, start, pre, ps) == [h] + CutFrom(text, ps[0] + 1, [], ps[1..])
            && CutFrom(text, start, pre, ps[..k]) == [h] + CutFrom(text, ps[0] + 1, [], ps[1..][..k - 1])
  {
    var qs := ps[..k];
    CutsPrefix(text, start, ps, k);
    assert qs[0] == ps[0] && qs[1..] == ps[1..][..k - 1];
    CutFromCons(text, start, pre, qs);
    CutFromCons(text, start, pre, ps);
  }

  /** One step of `CutFromPrefix`, on the pieces alone: putting the same first piece in front of
      the unbounded and of the capped cut of the rest keeps the claim. */
  lemma PrefixStep(full: seq<String>, tail: seq<String>, capped: seq<String>, cappedTail: seq<String>,
                   h: String, k: nat, delim: char)
    requires 1 <= k <= |tail| + 1
    requires full == [h] + tail && capped == [h] + cappedTail
    requires cappedTail == tail[..k - 1] + [JoinWith(tail[k - 1..], [delim])]
    ensures capped == full[..k] + [JoinWith(full[k..], [delim])]
  {
    ConsSnoc(full, tail, k, delim);
  }

  /** Unfolding `CutFrom` at its first position. */
  lemma CutFromCons(text: String, start: nat, pre: String, qs: seq<nat>)
    requires start <= |text| && |qs| > 0 && Cuts(text, start, qs)
    ensures Cuts(text, qs[0] + 1, qs[1..])
    ensures CutFrom(text, start, pre, qs) == [pre + text[start..qs[0]]] + CutFrom(text, qs[0] + 1, [], qs[1..])
  {
  }

  /** Cutting at no position leaves one piece: the join of all the pieces. */
  lemma CutFromNoPrefix(text: String, delim: char, start: nat, pre: String, ps: seq<nat>)
    requires start <= |text| && Cuts(text, start, ps) && AtDelims(text, delim, ps)
    ensures var full := CutFrom(text, start, pre, ps);
            CutFrom(text, start, pre, ps[..0]) == full[..0] + [JoinWith(full[0..], [delim])]
  {
    var full := CutFrom(text, start, pre, ps);
    JoinCutFrom(text, delim, start, pre, ps);
    assert full[0..] == full;
    assert ps[..0] == [];
  }

  /** Moving the first piece in front of a prefix-and-joined-rest split of the tail. */
  lemma ConsSnoc(full: seq<String>, tail: seq<String>, k: nat, delim: char)
    requires |full| >= 1 && full == [full[0]] + tail && 1 <= k <= |full|
    ensures [full[0]] + (tail[..k - 1] + [JoinWith(tail[k - 1..], [delim])])
            == full[..k] + [JoinWith(full[k..], [delim])]
  {
    assert full[..k] == [full[0]] + tail[..k - 1];
    assert full[k..] == tail[k - 1..];
    Assoc([full[0]], tail[..k - 1], [JoinWith(tail[k - 1..], [delim])]);
  }

  /** The split cap: a capped split agrees with the unbounded one on all parts but its last, and
      its last part is the rest of the unbounded parts joined back with the delimiter, that is the
      rest of the text verbatim. */
  lemma SplitCapKeepsRest(text: String, delim: char, maxSplits: int)
    requires maxSplits >= 0
    ensures var full := Split(text, delim, -1);
            var capped := Split(text, delim, maxSplits);
            var k := |capped| - 1;
            && k == Min(maxSplits, |full| - 1)
            && capped[..k] == full[..k]
            && capped[k] == JoinWith(full[k..], [delim])
  {
    var ps := PlainDelims(text, delim);
    var k := Budget(maxSplits, 0, |ps|);
    var full := CutFrom(text, 0, [], ps);
    SplitUnbounded(text, delim);
    SplitCapped(text, delim, maxSplits, full);
    SnocPrefix(full, k, JoinWith(full[k..], [delim]));
  }

  /** The unbounded split cuts at every plain delimiter. */
  lemma SplitUnbounded(text: String, delim: char)
    ensures Split(text, delim, -1) == CutFrom(text, 0, [], PlainDelims(text, delim))
  {
    var ps := PlainDelims(text, delim);
    SplitIsCutAtPlainDelims(text, delim, -1);
    assert ps[..|ps|] == ps;
  }

  /** A capped split is the unbounded cut up to the cap, with the rest joined into the last part. */
  lemma SplitCapped(text: String, delim: char, maxSplits: int, full: seq<String>)
    requires maxSplits >= 0
    requires full == CutFrom(text, 0, [], PlainDelims(text, delim))
    ensures var k := Budget(maxSplits, 0, |PlainDelims(text, delim)|);
            k <= |full| - 1 && Split(text, delim, maxSplits) == full[..k] + [JoinWith(full[k..], [delim])]
  {
    var ps := PlainDelims(text, delim);
    SplitIsCutAtPlainDelims(text, delim, maxSplits);
    CutFromPrefix(text, delim, 0, [], ps, Budget(maxSplits, 0, |ps|));
  }

  /** The first `k` elements followed by `x`: its first `k` elements and the one at `k`. */
  lemma SnocPrefix<T>(xs: seq<T>, k: nat, x: T)
    requires k <= |xs|
    ensures |xs[..k] + [x]| == k + 1
    ensures (xs[..k] + [x])[..k] == xs[..k] && (xs[..k] + [x])[k] == x
  {
  }

  // ---------------------------------------------------------------------------------------
  // Opacity: spans the lexer walks through without reporting a delimiter.

  lemma NotFenceAt(text: String, i: nat)
    requires i < |text| && text[i] != '`'
    ensures !FenceAt(text, i)
  {
  }

  /** A character other than a backtick among the three from `i` rules out a fence marker at `i`. */
  lemma NoFenceNear(text: String, i: nat, j: nat)
    requires i <= j < i + 3 && j < |text| && text[j] != '`'
    ensures !FenceAt(text, i)
  {
  }

  /** Where the text spells a string of three or more characters without fence markers, no fence
      marker starts. */
  lemma NoFenceWithin(text: String, i: nat, w: String)
    requires |w| >= 3 && i + |w| <= |text| && text[i..i + |w|] == w && NoFence(w)
    ensures !FenceAt(text, i)
  {
    assert text[i..i + |w|][0] == text[i] && text[i..i + |w|][1] == text[i + 1] && text[i..i + |w|][2] == text[i + 2];
  }

  /** A slice that spells `a + b` splits into a slice spelling `a` and one spelling `b`. */
  lemma SliceSplit(text: String, p: nat, a: String, b: String)
    requires p + |a| + |b| <= |text| && text[p..p + |a| + |b|] == a + b
    ensures text[p..p + |a|] == a
    ensures text[p + |a|..p + |a| + |b|] == b
  {
    assert text[p..p + |a|] == text[p..p + |a| + |b|][..|a|];
    assert text[p + |a|..p + |a| + |b|] == text[p..p + |a| + |b|][|a|..];
  }

  /** A slice spelling a non-empty string starts with its first character, and the slice one
      place further on spells the rest. */
  lemma SliceRest(text: String, p: nat, w: String)
    requires |w| > 0 && p + |w| <= |text| && text[p..p + |w|] == w
    ensures text[p] == w[0] && text[p + 1..p + |w|] == w[1..]
  {
    assert text[p..p + |w|][0] == text[p];
    assert text[p + 1..p + |w|] == text[p..p + |w|][1..];
  }

  /** Inside a fence, a character where no fence marker starts is passed over. */
  lemma FenceCharStep(text: String, delim: char, p: nat, inQuotes: bool)
    requires p < |text| && !FenceAt(text, p)
    ensures PlainDelimsFrom(text, delim, p, inQuotes, true) == PlainDelimsFrom(text, delim, p + 1, inQuotes, true)
  {
  }

  /** Inside a fence, a body without fence markers is passed over up to the closing marker: its
      quotes and delimiters are inert. The text spells the body and the first two backticks of
      that marker, and together they hold no fence marker. */
  lemma {:induction false} FenceBodyWalk(text: String, delim: char, p: nat, body: String, inQuotes: bool)
    requires p + |body| + 2 <= |text| && text[p..p + |body| + 2] == body + "``"
    requires NoFence(body + "``")
    ensures PlainDelimsFrom(text, delim, p, inQuotes, true) == PlainDelimsFrom(text, delim, p + |body|, inQuotes, true)
    decreases |body|
  {
    if |body| > 0 {
      var w := body + "``";
      NoFenceWithin(text, p, w);
      FenceCharStep(text, delim, p, inQuotes);
      SliceRest(text, p, w);
      assert w[1..] == body[1..] + "``";
      FenceBodyWalk(text, delim, p + 1, body[1..], inQuotes);
    }
  }

  /** The body of a fenced span, with the first two backticks of its closing marker. */
  lemma FenceBodyText(text: String, q: nat, body: String)
    requires q + |body| + 3 <= |text| && text[q..q + |body| + 3] == body + Fence
    ensures text[q..q + |body| + 2] == body + "``"
  {
    assert text[q..q + |body| + 2] == text[q..q + |body| + 3][..|body| + 2];
    assert (body + Fence)[..|body| + 2] == body + "``";
  }

  /** A fenced span reports no delimiter and leaves both modes as they were, whatever the quote
      mode: the fence marker is honoured even inside quotes. The body may hold backticks, but no
      fence marker, and it may not end in one. */
  lemma FencedSpanIsOpaque(text: String, delim: char, p: nat, body: String, inQuotes: bool)
    requires p + |body| + 6 <= |text| && text[p..p + |body| + 6] == Fence + body + Fence
    requires NoFence(body) && !EndsInBacktick(body)
    ensures PlainDelimsFrom(text, delim, p, inQuotes, false)
            == PlainDelimsFrom(text, delim, p + |body| + 6, inQuotes, false)
  {
    Assoc(Fence, body, Fence);
    SliceSplit(text, p, Fence, body + Fence);
    SliceSplit(text, p + 3, body, Fence);
    FenceBodyText(text, p + 3, body);
    FenceSafe(body);
    FenceStep(text, delim, p, inQuotes, false);
    FenceBodyWalk(text, delim, p + 3, body, inQuotes);
    FenceStep(text, delim, p + 3 + |body|, inQuotes, true);
  }

  /** A fence marker toggles fence mode and reports no delimiter, whatever the quote mode. */
  lemma FenceStep(text: String, delim: char, p: nat, inQuotes: bool, inFence: bool)
    requires p + 3 <= |text| && text[p..p + 3] == Fence
    ensures PlainDelimsFrom(text, delim, p, inQuotes, inFence) == PlainDelimsFrom(text, delim, p + 3, inQuotes, !inFence)
  {
    FenceAtSlice(text, p);
  }

  /** Inside quotes, the escape of one character is passed over where no fence marker starts: a
      doubled quote is read as an escaped pair and keeps quote mode, and a delimiter is inert. */
  lemma QuotedCharStep(text: String, delim: char, p: nat, c: char, rest: String)
    requires !FenceAt(text, p)
    requires var head := if c == '"' then "\"\"" else [c];
             p + |head| + |rest| <= |text| && text[p..p + |head| + |rest|] == head + rest
    ensures var head := if c == '"' then "\"\"" else [c];
            && text[p + |head|..p + |head| + |rest|] == rest
            && PlainDelimsFrom(text, delim, p, true, false) == PlainDelimsFrom(text, delim, p + |head|, true, false)
  {
    var head: String := if c == '"' then "\"\"" else [c];
    SliceSplit(text, p, head, rest);
    assert text[p] == head[0] == c;
    if c == '"' {
      assert text[p + 1] == head[1] == '"';
    }
  }

  /** No fence marker starts inside an escaped body without fence markers, up to its closing
      quote. */
  lemma QuotedNoFenceAt(text: String, p: nat, w: String)
    requires |w| > 0 && w[|w| - 1] == '"' && NoFence(w)
    requires p + |w| <= |text| && text[p..p + |w|] == w
    ensures !FenceAt(text, p)
  {
    if |w| >= 3 {
      NoFenceWithin(text, p, w);
    } else {
      assert text[p + |w| - 1] == text[p..p + |w|][|w| - 1];
      NoFenceNear(text, p, p + |w| - 1);
    }
  }

  /** Inside quotes, an escaped body is passed over up to its closing quote. The text spells the
      escaped body and that quote, and together they hold no fence marker. */
  lemma {:induction false} QuotedBodyWalk(text: String, delim: char, p: nat, raw: String)
    requires var w := EscapeQuotes(raw) + "\"";
             p + |w| <= |text| && text[p..p + |w|] == w && NoFence(w)
    ensures PlainDelimsFrom(text, delim, p, true, false)
            == PlainDelimsFrom(text, delim, p + |EscapeQuotes(raw)|, true, false)
    decreases |raw|
  {
    if |raw| > 0 {
      QuotedStep(text, delim, p, raw);
      QuotedBodyWalk(text, delim, p + (if raw[0] == '"' then 2 else 1), raw[1..]);
    }
  }

  /** One step of `QuotedBodyWalk`: the escape of the first raw character is passed over, and the
      rest of the escaped body with its closing quote follows it. */
  lemma QuotedStep(text: String, delim: char, p: nat, raw: String)
    requires |raw| > 0
    requires var w := EscapeQuotes(raw) + "\"";
             p + |w| <= |text| && text[p..p + |w|] == w && NoFence(w)
    ensures var n := if raw[0] == '"' then 2 else 1;
            var w1 := EscapeQuotes(raw[1..]) + "\"";
            && |EscapeQuotes(raw)| == n + |EscapeQuotes(raw[1..])|
            && p + n + |w1| <= |text| && text[p + n..p + n + |w1|] == w1 && NoFence(w1)
            && PlainDelimsFrom(text, delim, p, true, false) == PlainDelimsFrom(text, delim, p + n, true, false)
  {
    var c := raw[0];
    var head: String := if c == '"' then "\"\"" else [c];
    var rest := EscapeQuotes(raw[1..]) + "\"";
    var w := EscapeQuotes(raw) + "\"";
    assert EscapeQuotes(raw) == head + EscapeQuotes(raw[1..]);
    Assoc(head, EscapeQuotes(raw[1..]), "\"");
    QuotedNoFenceAt(text, p, w);
    QuotedCharStep(text, delim, p, c, rest);
    NoFenceDrop(w, |head|);
    assert w[|head|..] == rest;
  }

  /** A quote in plain mode opens a quoted run. */
  lemma OpenQuoteStep(text: String, delim: char, p: nat)
    requires p < |text| && text[p] == '"'
    ensures PlainDelimsFrom(text, delim, p, false, false) == PlainDelimsFrom(text, delim, p + 1, true, false)
  {
    NotFenceAt(text, p);
  }

  /** A quote inside quotes that is not followed by another quote closes the run. */
  lemma CloseQuoteStep(text: String, delim: char, p: nat)
    requires p < |text| && text[p] == '"' && (p + 1 == |text| || text[p + 1] != '"')
    ensures PlainDelimsFrom(text, delim, p, true, false) == PlainDelimsFrom(text, delim, p + 1, false, false)
  {
    NotFenceAt(text, p);
  }

  /** A quoted span without fence markers, not followed by another quote, reports no delimiter and
      ends outside quotes. Single backticks and pairs of them inside are inert. */
  lemma QuotedSpanIsOpaque(text: String, delim: char, p: nat, raw: String)
    requires var n := |EscapeQuotes(raw)| + 2;
             p + n <= |text| && text[p..p + n] == "\"" + EscapeQuotes(raw) + "\""
    requires NoFence(raw)
    requires p + |EscapeQuotes(raw)| + 2 == |text| || text[p + |EscapeQuotes(raw)| + 2] != '"'
    ensures PlainDelimsFrom(text, delim, p, false, false)
            == PlainDelimsFrom(text, delim, p + |EscapeQuotes(raw)| + 2, false, false)
  {
    var e := EscapeQuotes(raw);
    var close := p + 1 + |e|;
    QuotedSpanText(text, p, e);
    EscapedNoFence(raw);
    OpenQuoteStep(text, delim, p);
    QuotedBodyWalk(text, delim, p + 1, raw);
    CloseQuoteStep(text, delim, close);
  }

  /** The parts of a quoted span: its opening quote, and its body with the closing quote. */
  lemma QuotedSpanText(text: String, p: nat, e: String)
    requires p + |e| + 2 <= |text| && text[p..p + |e| + 2] == "\"" + e + "\""
    ensures text[p] == '"' && text[p + 1 + |e|] == '"'
    ensures text[p + 1..p + |e| + 2] == e + "\""
  {
    var w := "\"" + e + "\"";
    SliceRest(text, p, w);
    assert w[1..] == e + "\"";
    assert text[p + 1 + |e|] == text[p + 1..p + |e| + 2][|e|];
  }

  /** In plain mode, a character that is no quote and no delimiter, and where no fence marker
      starts, is passed over. */
  lemma PlainCharStep(text: String, delim: char, p: nat)
    requires p < |text| && !FenceAt(text, p) && text[p] != '"' && text[p] != delim
    ensures PlainDelimsFrom(text, delim, p, false, false) == PlainDelimsFrom(text, delim, p + 1, false, false)
  {
  }

  /** A bare run without delimiter, quote or fence marker, followed by the delimiter or the end of
      the text, is passed over in plain mode. */
  lemma {:induction false} PlainSpanWalk(text: String, delim: char, p: nat, t: String)
    requires delim != '`'
    requires p + |t| <= |text| && text[p..p + |t|] == t
    requires p + |t| == |text| || text[p + |t|] == delim
    requires NoChar(t, delim) && NoChar(t, '"') && NoFence(t)
    ensures PlainDelimsFrom(text, delim, p, false, false) == PlainDelimsFrom(text, delim, p + |t|, false, false)
    decreases |t|
  {
    if |t| > 0 {
      SliceRest(text, p, t);
      if |t| >= 3 {
        NoFenceWithin(text, p, t);
      } else if p + |t| < |text| {
        NoFenceNear(text, p, p + |t|);
      }
      assert t[0] != delim && t[0] != '"';
      PlainCharStep(text, delim, p);
      NoCharRest(t, delim);
      NoCharRest(t, '"');
      NoFenceDrop(t, 1);
      PlainSpanWalk(text, delim, p + 1, t[1..]);
    }
  }

  /** A well-formed column, followed by the delimiter or the end of the text, is passed over. */
  lemma ColumnWalk(text: String, delim: char, p: nat, c: Column)
    requires delim != '"' && delim != '`' && WellFormed(c, delim)
    requires p + |Render(c)| <= |text| && text[p..p + |Render(c)|] == Render(c)
    requires p + |Render(c)| == |text| || text[p + |Render(c)|] == delim
    ensures PlainDelimsFrom(text, delim, p, false, false)
            == PlainDelimsFrom(text, delim, p + |Render(c)|, false, false)
  {
    if c.Plain? {
      PlainSpanWalk(text, delim, p, c.text);
    } else if c.Quoted? {
      QuotedColumnWalk(text, delim, p, c);
    } else {
      FencedColumnWalk(text, delim, p, c);
    }
  }

  lemma QuotedColumnWalk(text: String, delim: char, p: nat, c: Column)
    requires c.Quoted? && delim != '"' && delim != '`' && WellFormed(c, delim)
    requires p + |Render(c)| <= |text| && text[p..p + |Render(c)|] == Render(c)
    requires p + |Render(c)| == |text| || text[p + |Render(c)|] == delim
    ensures PlainDelimsFrom(text, delim, p, false, false)
            == PlainDelimsFrom(text, delim, p + |Render(c)|, false, false)
  {
    QuotedSpanIsOpaque(text, delim, p, c.raw);
  }

  lemma FencedColumnWalk(text: String, delim: char, p: nat, c: Column)
    requires c.Fenced? && WellFormed(c, delim)
    requires p + |Render(c)| <= |text| && text[p..p + |Render(c)|] == Render(c)
    ensures PlainDelimsFrom(text, delim, p, false, false)
            == PlainDelimsFrom(text, delim, p + |Render(c)|, false, false)
  {
    FencedSpanIsOpaque(text, delim, p, c.body, false);
  }

  /** Positions of the separators in the join of `parts` laid down from `p`. */
  function SepOffsets(p: nat, parts: seq<String>): (ps: seq<nat>)
    ensures |parts| >= 1 ==> |ps| == |parts| - 1
    decreases |parts|
  {
    if |parts| <= 1 then [] else [p + |parts[0]|] + SepOffsets(p + |parts[0]| + 1, parts[1..])
  }

  /** Where the text from `p` spells `x`, a delimiter and `rest`, each can be read off by position. */
  lemma ReadJoin(text: String, p: nat, x: String, delim: char, rest: String)
    requires p <= |text| && text[p..] == x + [delim] + rest
    ensures p + |x| < |text|
    ensures text[p..p + |x|] == x && text[p + |x|] == delim && text[p + |x| + 1..] == rest
  {
    assert text[p..][..|x|] == x;
    assert text[p..][|x|] == delim;
    assert text[p..][|x| + 1..] == rest;
  }

  /** In a row of well-formed columns, the plain delimiters are exactly the separators. */
  lemma {:induction false} RowLexing(text: String, delim: char, p: nat, cols: seq<Column>)
    requires |cols| >= 1 && delim != '"' && delim != '`'
    requires forall j :: 0 <= j < |cols| ==> WellFormed(cols[j], delim)
    requires p <= |text| && text[p..] == RenderRow(cols, delim)
    ensures PlainDelimsFrom(text, delim, p, false, false) == SepOffsets(p, RenderAll(cols))
    decreases |cols|
  {
    if |cols| == 1 {
      LastColumn(text, delim, p, cols);
    } else {
      RowStep(text, delim, p, cols);
      RowLexing(text, delim, p + |Render(cols[0])| + 1, cols[1..]);
    }
  }

  /** The first column of a longer row and the delimiter after it: the delimiter is reported, and
      the rest of the text is the rest of the row. */
  lemma RowStep(text: String, delim: char, p: nat, cols: seq<Column>)
    requires |cols| >= 2 && delim != '"' && delim != '`'
    requires forall j :: 0 <= j < |cols| ==> WellFormed(cols[j], delim)
    requires p <= |text| && text[p..] == RenderRow(cols, delim)
    ensures var q := p + |Render(cols[0])|;
            && q + 1 <= |text| && text[q + 1..] == RenderRow(cols[1..], delim)
            && (forall j :: 0 <= j < |cols[1..]| ==> WellFormed(cols[1..][j], delim))
            && PlainDelimsFrom(text, delim, p, false, false) == [q] + PlainDelimsFrom(text, delim, q + 1, false, false)
            && SepOffsets(p, RenderAll(cols)) == [q] + SepOffsets(q + 1, RenderAll(cols[1..]))
  {
    var rest := RenderRow(cols[1..], delim);
    assert WellFormed(cols[0], delim);
    RenderRowCons(cols, delim, p);
    ColumnThenDelim(text, delim, p, cols[0], rest);
    TailWellFormed(cols, delim);
  }

  /** The last column of a row yields no delimiter. */
  lemma LastColumn(text: String, delim: char, p: nat, cols: seq<Column>)
    requires |cols| == 1 && delim != '"' && delim != '`' && WellFormed(cols[0], delim)
    requires p <= |text| && text[p..] == RenderRow(cols, delim)
    ensures PlainDelimsFrom(text, delim, p, false, false) == SepOffsets(p, RenderAll(cols))
  {
    var r0 := Render(cols[0]);
    assert RenderAll(cols) == [r0];
    assert text[p..p + |r0|] == text[p..] == r0;
    ColumnWalk(text, delim, p, cols[0]);
  }

  /** A row of two or more columns is its first column, the delimiter and the rest of the row. */
  lemma RenderRowCons(cols: seq<Column>, delim: char, p: nat)
    requires |cols| >= 2
    ensures RenderRow(cols, delim) == Render(cols[0]) + [delim] + RenderRow(cols[1..], delim)
    ensures SepOffsets(p, RenderAll(cols))
            == [p + |Render(cols[0])|] + SepOffsets(p + |Render(cols[0])| + 1, RenderAll(cols[1..]))
  {
    var rest := RenderAll(cols[1..]);
    assert RenderAll(cols) == [Render(cols[0])] + rest;
    assert (RenderAll(cols))[1..] == rest;
    JoinCons(Render(cols[0]), rest, [delim]);
  }

  /** A well-formed column followed by the delimiter yields that delimiter and then whatever the
      text after it yields. */
  lemma ColumnThenDelim(text: String, delim: char, p: nat, c: Column, rest: String)
    requires delim != '"' && delim != '`' && WellFormed(c, delim)
    requires p <= |text| && text[p..] == Render(c) + [delim] + rest
    ensures p + |Render(c)| < |text| && text[p + |Render(c)| + 1..] == rest
    ensures PlainDelimsFrom(text, delim, p, false, false)
            == [p + |Render(c)|] + PlainDelimsFrom(text, delim, p + |Render(c)| + 1, false, false)
  {
    ReadJoin(text, p, Render(c), delim, rest);
    ColumnWalk(text, delim, p, c);
    NotFenceAt(text, p + |Render(c)|);
  }

  lemma TailWellFormed(cols: seq<Column>, delim: char)
    requires |cols| >= 1 && forall j :: 0 <= j < |cols| ==> WellFormed(cols[j], delim)
    ensures forall j :: 0 <= j < |cols[1..]| ==> WellFormed(cols[1..][j], delim)
  {
    assert forall j :: 0 <= j < |cols[1..]| ==> cols[1..][j] == cols[j + 1];
  }

  /** Cutting the join of `parts` at its separators gives the parts back. */
  lemma {:induction false} CutRow(text: String, delim: char, p: nat, parts: seq<String>)
    requires |parts| >= 1 && p <= |text| && text[p..] == JoinWith(parts, [delim])
    requires Cuts(text, p, SepOffsets(p, parts))
    ensures CutFrom(text, p, [], SepOffsets(p, parts)) == parts
    decreases |parts|
  {
    if |parts| == 1 {
      assert [] + text[p..] == parts[0];
    } else {
      var later := parts[1..];
      var q := p + |parts[0]|;
      var ps := SepOffsets(p, parts);
      JoinCons(parts[0], later, [delim]);
      assert parts == [parts[0]] + later;
      ReadJoin(text, p, parts[0], delim, JoinWith(later, [delim]));
      assert ps == [q] + SepOffsets(q + 1, later);
      CutsTail(text, p, q, SepOffsets(q + 1, later));
      CutRow(text, delim, q + 1, later);
      assert [] + text[p..q] == parts[0];
    }
  }

  /** The cuts after the first one are cuts of the rest of the text. */
  lemma CutsTail(text: String, p: nat, q: nat, qs: seq<nat>)
    requires Cuts(text, p, [q] + qs)
    ensures Cuts(text, q + 1, qs)
  {
    assert ([q] + qs)[1..] == qs;
  }

  /** The plain delimiters of a rendered row are its separators. */
  lemma RowDelims(cols: seq<Column>, delim: char)
    requires |cols| >= 1 && delim != '"' && delim != '`'
    requires forall j :: 0 <= j < |cols| ==> WellFormed(cols[j], delim)
    ensures PlainDelims(RenderRow(cols, delim), delim) == SepOffsets(0, RenderAll(cols))
  {
    var text := RenderRow(cols, delim);
    assert text[0..] == text;
    RowLexing(text, delim, 0, cols);
  }

  /** Round trip: splitting a row of well-formed columns, with a cap that allows a split at every
      separator, returns exactly the rendered columns. */
  lemma SplitRenderedRow(cols: seq<Column>, delim: char, maxSplits: int)
    requires |cols| >= 1 && delim != '"' && delim != '`'
    requires forall j :: 0 <= j < |cols| ==> WellFormed(cols[j], delim)
    requires maxSplits == -1 || maxSplits >= |cols| - 1
    ensures Split(RenderRow(cols, delim), delim, maxSplits) == RenderAll(cols)
  {
    RowDelims(cols, delim);
    SplitJoinedParts(RenderRow(cols, delim), delim, maxSplits, RenderAll(cols));
  }

  /** A text joined from parts whose plain delimiters are exactly the separators splits back into
      those parts when the cap allows every split. */
  lemma SplitJoinedParts(text: String, delim: char, maxSplits: int, parts: seq<String>)
    requires |parts| >= 1 && text == JoinWith(parts, [delim])
    requires PlainDelims(text, delim) == SepOffsets(0, parts)
    requires maxSplits == -1 || maxSplits >= |parts| - 1
    ensures Split(text, delim, maxSplits) == parts
  {
    var ps := PlainDelims(text, delim);
    SplitIsCutAtPlainDelims(text, delim, maxSplits);
    assert ps[..Budget(maxSplits, 0, |ps|)] == ps;
    assert text[0..] == text;
    CutRow(text, delim, 0, parts);
  }
}

=== FILE: splitter.dfy ===
/** The field splitter `split_respecting_quotes_and_backticks` (csv_parser.py:17-65): a single
    left-to-right scan that cuts the text at the delimiter, except inside a double-quoted run or a
    triple-backtick fence, and at most `maxSplits` times (`-1` for no bound).

    The scan is modelled twice. `Scan`/`Step`/`Run` follow the source's loop state by state.
    `PlainDelimsFrom` is a separate lexer that only tracks the two lexical modes and reports where
    the delimiters outside both modes are; `CutFrom` cuts a text at given positions. The theorem
    `SplitIsCutAtPlainDelims` shows the scan is exactly "cut at the first `k` plain delimiters",
    and the remaining properties are read off that characterisation. */
module Splitter {
  import opened Strings

  /** The loop variables of the scan: the index, both modes, the split counter, the part being
      built and the parts already closed. */
  datatype Scan = Scan(i: nat, inQuotes: bool, inFence: bool, splitsDone: nat, current: String, parts: seq<String>)

  const Start: Scan := Scan(0, false, false, 0, [], [])

  /** `max_splits == -1 or splits_done < max_splits`. */
  predicate MaySplit(maxSplits: int, splitsDone: nat) {
    maxSplits == -1 || splitsDone < maxSplits
  }

  /** The text consumed so far, recovered from the closed parts and the open one. */
  function Scanned(s: Scan, delim: char): String {
    JoinWith(s.parts + [s.current], [delim])
  }

  /** The character at `i` is a delimiter that the scan, in the given modes, treats as a field
      separator: no fence marker starts there, neither mode is on, and it is not a quote (a quote
      outside a fence is always handled as a quote). */
  predicate PlainDelimAt(text: String, delim: char, i: nat, inQuotes: bool, inFence: bool)
    requires i < |text|
  {
    !FenceAt(text, i) && !inQuotes && !inFence && text[i] == delim && text[i] != '"'
  }

  /** One iteration of the `while i < n` loop. */
  function Step(text: String, delim: char, maxSplits: int, s: Scan): (r: Scan)
    requires s.i < |text|
    ensures s.i < r.i <= |text|
    // every character consumed is kept, verbatim, in the parts
    ensures Scanned(r, delim) == Scanned(s, delim) + text[s.i..r.i]
    // a part ends only at a delimiter met outside quotes and fences while splits remain
    ensures r.parts == s.parts
            || (&& r.parts == s.parts + [s.current] && r.current == [] && r.i == s.i + 1
                && text[s.i] == delim && !s.inQuotes && !s.inFence && MaySplit(maxSplits, s.splitsDone))
    ensures r.splitsDone - s.splitsDone == |r.parts| - |s.parts|
    // a fence marker toggles fence mode whatever the quote mode
    ensures FenceAt(text, s.i) ==> r.inFence != s.inFence && r.inQuotes == s.inQuotes && r.i == s.i + 3
    // inside a fence nothing but a fence marker changes a mode
    ensures s.inFence && !FenceAt(text, s.i) ==> r.inFence && r.inQuotes == s.inQuotes
    // inside quotes an escaped pair is consumed whole and keeps quote mode
    ensures (s.inQuotes && !s.inFence && !FenceAt(text, s.i) && text[s.i] == '"'
             && s.i + 1 < |text| && text[s.i + 1] == '"') ==> r.inQuotes && r.i == s.i + 2
    // without a split, the consumed characters went into the open part
    ensures r.parts == s.parts ==> r.current == s.current + text[s.i..r.i] && r.splitsDone == s.splitsDone
    // a plain delimiter while splits remain always ends the part
    ensures PlainDelimAt(text, delim, s.i, s.inQuotes, s.inFence) && MaySplit(maxSplits, s.splitsDone)
            ==> r.parts == s.parts + [s.current]
  {
    if FenceAt(text, s.i) then
      FenceAtSlice(text, s.i);
      JoinExtendLast(s.parts, s.current, Fence, [delim]);
      s.(i := s.i + 3, inFence := !s.inFence, current := s.current + Fence)
    else
      var c := text[s.i];
      assert text[s.i..s.i + 1] == [c];
      if !s.inFence && c == '"' then
        if s.inQuotes && s.i + 1 < |text| && text[s.i + 1] == '"' then
          // the escaped pair is kept as both of its quote characters
          JoinExtendLast(s.parts, s.current, text[s.i..s.i + 2], [delim]);
          assert text[s.i..s.i + 2] == ['"'] + [c];
          assert s.current + ['"'] + [c] == s.current + text[s.i..s.i + 2];
          s.(i := s.i + 2, current := s.current + ['"'] + [c])
        else
          JoinExtendLast(s.parts, s.current, [c], [delim]);
          s.(i := s.i + 1, inQuotes := !s.inQuotes, current := s.current + [c])
      else if c == delim && !s.inQuotes && !s.inFence then
        if MaySplit(maxSplits, s.splitsDone) then
          JoinSnoc(s.parts + [s.current], [], [delim]);
          s.(i := s.i + 1, splitsDone := s.splitsDone + 1, parts := s.parts + [s.current], current := [])
        else
          JoinExtendLast(s.parts, s.current, [c], [delim]);
          s.(i := s.i + 1, current := s.current + [c])
      else
        JoinExtendLast(s.parts, s.current, [c], [delim]);
        s.(i := s.i + 1, current := s.current + [c])
  }

  /** The states the scan can reach: as many closed parts as splits, and never more splits
      than allowed. */
  predicate Reachable(maxSplits: int, s: Scan) {
    && |s.parts| == s.splitsDone
    && (maxSplits >= 0 ==> s.splitsDone <= maxSplits)
    && (maxSplits < -1 ==> s.splitsDone == 0)
  }

  /** The loop run to the end, followed by `parts.append("".join(current_part))`. */
  function Run(text: String, delim: char, maxSplits: int, s: Scan): (r: seq<String>)
    requires s.i <= |text| && Reachable(maxSplits, s)
    ensures |r| > |s.parts| && r[..|s.parts|] == s.parts
    ensures JoinWith(r, [delim]) == Scanned(s, delim) + text[s.i..]
    ensures maxSplits >= 0 ==> |r| <= maxSplits + 1
    ensures maxSplits < -1 ==> |r| == 1
    decreases |text| - s.i
  {
    if s.i >= |text| then
      s.parts + [s.current]
    else
      var s' := Step(text, delim, maxSplits, s);
      assert Reachable(maxSplits, s');
      var r := Run(text, delim, maxSplits, s');
      assert r[..|s.parts|] == r[..|s'.parts|][..|s.parts|];
      assert text[s.i..] == text[s.i..s'.i] + text[s'.i..];
      Assoc(Scanned(s, delim), text[s.i..s'.i], text[s'.i..]);
      r
  }

  /** `split_respecting_quotes_and_backticks(text, delim, maxSplits)`. */
  function Split(text: String, delim: char, maxSplits: int): (parts: seq<String>)
    // never empty: the empty text gives one empty part
    ensures |parts| >= 1
    // lossless: joining the parts with the delimiter gives back the text
    ensures JoinWith(parts, [delim]) == text
    ensures maxSplits >= 0 ==> |parts| <= maxSplits + 1
    ensures maxSplits < -1 ==> parts == [text]
  {
    Run(text, delim, maxSplits, Start)
  }

  // ---------------------------------------------------------------------------------------
  // Reference: where the plain-context delimiters are, and cutting a text at positions.

  /** Positions, strictly increasing, inside `start..|text|`. */
  predicate Cuts(text: String, start: nat, ps: seq<nat>)
    decreases |ps|
  {
    |ps| == 0 || (start <= ps[0] < |text| && Cuts(text, ps[0] + 1, ps[1..]))
  }

  /** Every position holds the delimiter. */
  predicate AtDelims(text: String, delim: char, ps: seq<nat>)
    decreases |ps|
  {
    |ps| == 0 || (ps[0] < |text| && text[ps[0]] == delim && AtDelims(text, delim, ps[1..]))
  }

  /** The lexer: scanning from `i` in the given modes, the positions of the delimiters met
      outside quotes and fences. It tracks the modes exactly as the scan does but builds no parts. */
  function PlainDelimsFrom(text: String, delim: char, i: nat, inQuotes: bool, inFence: bool): (ps: seq<nat>)
    requires i <= |text|
    ensures Cuts(text, i, ps)
    ensures AtDelims(text, delim, ps)
    decreases |text| - i
  {
    if i >= |text| then []
    else if FenceAt(text, i) then PlainDelimsFrom(text, delim, i + 3, inQuotes, !inFence)
    else if !inFence && text[i] == '"' then
      if inQuotes && i + 1 < |text| && text[i + 1] == '"' then PlainDelimsFrom(text, delim, i + 2, inQuotes, inFence)
      else PlainDelimsFrom(text, delim, i + 1, !inQuotes, inFence)
    else if text[i] == delim && !inQuotes && !inFence then
      var rest := PlainDelimsFrom(text, delim, i + 1, inQuotes, inFence);
      assert ([i] + rest)[1..] == rest;
      [i] + rest
    else PlainDelimsFrom(text, delim, i + 1, inQuotes, inFence)
  }

  /** The plain-context delimiters of a whole text. */
  function PlainDelims(text: String, delim: char): (ps: seq<nat>)
    ensures Cuts(text, 0, ps) && AtDelims(text, delim, ps)
  {
    PlainDelimsFrom(text, delim, 0, false, false)
  }

  /** `text[start..]` cut at the positions `ps` (the character at each position dropped), with
      `pre` in front of the first piece. */
  function CutFrom(text: String, start: nat, pre: String, ps: seq<nat>): (r: seq<String>)
    requires start <= |text| && Cuts(text, start, ps)
    ensures |r| == |ps| + 1
    decreases |ps|
  {
    if |ps| == 0 then [pre + text[start..]]
    else
      [pre + text[start..ps[0]]] + CutFrom(text, ps[0] + 1, [], ps[1..])
  }

  function Min(a: nat, b: nat): nat {
    if a <= b then a else b
  }

  /** How many of the `available` plain delimiters the scan still cuts at, given the splits
      already done. */
  function Budget(maxSplits: int, splitsDone: nat, available: nat): (k: nat)
    ensures k <= available
  {
    if maxSplits == -1 then available
    else if splitsDone >= maxSplits then 0
    else Min(maxSplits - splitsDone, available)
  }

  lemma {:induction false} CutsPrefix(text: String, start: nat, ps: seq<nat>, k: nat)
    requires Cuts(text, start, ps) && k <= |ps|
    ensures Cuts(text, start, ps[..k])
    decreases k
  {
    if k > 0 {
      CutsPrefix(text, ps[0] + 1, ps[1..], k - 1);
      assert ps[..k][1..] == ps[1..][..k - 1];
    }
  }

  /** Moving characters that precede the first cut from the text into the prefix changes nothing. */
  lemma CutFromShift(text: String, start: nat, pre: String, ps: seq<nat>, w: nat)
    requires start + w <= |text| && Cuts(text, start + w, ps)
    ensures Cuts(text, start, ps)
    ensures CutFrom(text, start, pre, ps) == CutFrom(text, start + w, pre + text[start..start + w], ps)
  {
    if |ps| == 0 {
      assert text[start..] == text[start..start + w] + text[start + w..];
      assert pre + text[start..] == (pre + text[start..start + w]) + text[start + w..];
    } else {
      assert text[start..ps[0]] == text[start..start + w] + text[start + w..ps[0]];
      assert pre + text[start..ps[0]] == (pre + text[start..start + w]) + text[start + w..ps[0]];
    }
  }

  /** The lexer and the scan agree on the modes after each step, and the lexer reports the
      step's position exactly when the scan meets a plain delimiter there. */
  lemma LexerFollowsStep(text: String, delim: char, maxSplits: int, s: Scan)
    requires s.i < |text|
    ensures var s' := Step(text, delim, maxSplits, s);
            PlainDelimsFrom(text, delim, s.i, s.inQuotes, s.inFence)
            == (if PlainDelimAt(text, delim, s.i, s.inQuotes, s.inFence) then [s.i] else [])
               + PlainDelimsFrom(text, delim, s'.i, s'.inQuotes, s'.inFence)
  {
  }

  lemma BudgetStep(maxSplits: int, splitsDone: nat, available: nat)
    ensures MaySplit(maxSplits, splitsDone) && available > 0
            ==> Budget(maxSplits, splitsDone, available) == Budget(maxSplits, splitsDone + 1, available - 1) + 1
    ensures !MaySplit(maxSplits, splitsDone) ==> Budget(maxSplits, splitsDone, available) == 0
  {
  }

  /** The claim of `RunIsCut` for one state. */
  predicate RunCutsAt(text: String, delim: char, maxSplits: int, s: Scan)
    requires s.i <= |text| && Reachable(maxSplits, s)
  {
    var ps := PlainDelimsFrom(text, delim, s.i, s.inQuotes, s.inFence);
    var k := Budget(maxSplits, s.splitsDone, |ps|);
    Cuts(text, s.i, ps[..k])
    && Run(text, delim, maxSplits, s) == s.parts + CutFrom(text, s.i, s.current, ps[..k])
  }

  /** The scan, from any reachable state, returns the closed parts followed by the rest of the text
      cut at the plain delimiters still within budget. */
  lemma {:induction false} RunIsCut(text: String, delim: char, maxSplits: int, s: Scan)
    requires s.i <= |text| && Reachable(maxSplits, s)
    ensures RunCutsAt(text, delim, maxSplits, s)
    decreases |text| - s.i
  {
    if s.i < |text| {
      var s' := Step(text, delim, maxSplits, s);
      RunIsCut(text, delim, maxSplits, s');
      StepKeepsCut(text, delim, maxSplits, s);
    } else {
      var ps := PlainDelimsFrom(text, delim, s.i, s.inQuotes, s.inFence);
      assert ps == [];
      assert text[s.i..] == [] && s.current + [] == s.current;
    }
  }

  /** If the claim holds after a step, it holds before it. */
  lemma StepKeepsCut(text: String, delim: char, maxSplits: int, s: Scan)
    requires s.i < |text| && Reachable(maxSplits, s)
    requires RunCutsAt(text, delim, maxSplits, Step(text, delim, maxSplits, s))
    ensures RunCutsAt(text, delim, maxSplits, s)
  {
    if PlainDelimAt(text, delim, s.i, s.inQuotes, s.inFence) {
      if MaySplit(maxSplits, s.splitsDone) {
        SplitStepKeepsCut(text, delim, maxSplits, s);
      } else {
        SpentStepKeepsCut(text, delim, maxSplits, s);
      }
    } else {
      OtherStepKeepsCut(text, delim, maxSplits, s);
    }
  }

  /** `StepKeepsCut` at a plain delimiter within budget. */
  lemma SplitStepKeepsCut(text: String, delim: char, maxSplits: int, s: Scan)
    requires s.i < |text| && Reachable(maxSplits, s)
    requires PlainDelimAt(text, delim, s.i, s.inQuotes, s.inFence) && MaySplit(maxSplits, s.splitsDone)
    requires RunCutsAt(text, delim, maxSplits, Step(text, delim, maxSplits, s))
    ensures RunCutsAt(text, delim, maxSplits, s)
  {
    var s' := Step(text, delim, maxSplits, s);
    assert s'.i == s.i + 1 && s'.parts == s.parts + [s.current] && s'.current == [];
    var ps := PlainDelimsFrom(text, delim, s.i, s.inQuotes, s.inFence);
    var ps' := PlainDelimsFrom(text, delim, s'.i, s'.inQuotes, s'.inFence);
    var k' := Budget(maxSplits, s'.splitsDone, |ps'|);
    var qs := ps'[..k'];
    var rest := Run(text, delim, maxSplits, s');
    assert Cuts(text, s.i + 1, qs) && rest == s.parts + [s.current] + CutFrom(text, s.i + 1, [], qs);
    assert Run(text, delim, maxSplits, s) == rest;
    LexerFollowsStep(text, delim, maxSplits, s);
    assert ps == [s.i] + ps';
    BudgetStep(maxSplits, s.splitsDone, |ps|);
    assert ps[..Budget(maxSplits, s.splitsDone, |ps|)] == [s.i] + qs;
    SplitCase(text, s.i, s.parts, s.current, qs, rest);
  }

  /** `StepKeepsCut` at a plain delimiter once the budget is spent. */
  lemma SpentStepKeepsCut(text: String, delim: char, maxSplits: int, s: Scan)
    requires s.i < |text| && Reachable(maxSplits, s)
    requires PlainDelimAt(text, delim, s.i, s.inQuotes, s.inFence) && !MaySplit(maxSplits, s.splitsDone)
    requires RunCutsAt(text, delim, maxSplits, Step(text, delim, maxSplits, s))
    ensures RunCutsAt(text, delim, maxSplits, s)
  {
    var s' := Step(text, delim, maxSplits, s);
    assert s'.i == s.i + 1 && s'.parts == s.parts && s'.current == s.current + [text[s.i]];
    assert s'.splitsDone == s.splitsDone;
    var ps := PlainDelimsFrom(text, delim, s.i, s.inQuotes, s.inFence);
    var ps' := PlainDelimsFrom(text, delim, s'.i, s'.inQuotes, s'.inFence);
    BudgetStep(maxSplits, s.splitsDone, |ps|);
    BudgetStep(maxSplits, s'.splitsDone, |ps'|);
    assert ps'[..0] == [] && ps[..0] == [];
    var rest := Run(text, delim, maxSplits, s');
    assert rest == s.parts + CutFrom(text, s.i + 1, s.current + [text[s.i]], []);
    assert Run(text, delim, maxSplits, s) == rest;
    NoSplitCase(text, s.i, s.parts, s.current, rest);
  }

  /** `StepKeepsCut` at any other character: no cut is made and none is lost. */
  lemma OtherStepKeepsCut(text: String, delim: char, maxSplits: int, s: Scan)
    requires s.i < |text| && Reachable(maxSplits, s)
    requires !PlainDelimAt(text, delim, s.i, s.inQuotes, s.inFence)
    requires RunCutsAt(text, delim, maxSplits, Step(text, delim, maxSplits, s))
    ensures RunCutsAt(text, delim, maxSplits, s)
  {
    var s' := Step(text, delim, maxSplits, s);
    assert s'.parts == s.parts && s'.splitsDone == s.splitsDone;
    assert s'.current == s.current + text[s.i..s'.i];
    var ps := PlainDelimsFrom(text, delim, s.i, s.inQuotes, s.inFence);
    LexerFollowsStep(text, delim, maxSplits, s);
    assert ps == PlainDelimsFrom(text, delim, s'.i, s'.inQuotes, s'.inFence);
    var qs := ps[..Budget(maxSplits, s.splitsDone, |ps|)];
    var rest := Run(text, delim, maxSplits, s');
    assert Cuts(text, s'.i, qs) && rest == s.parts + CutFrom(text, s'.i, s'.current, qs);
    assert Run(text, delim, maxSplits, s) == rest;
    ShiftCase(text, s.i, s'.i, s.parts, s.current, s'.current, qs, rest);
  }

  /** A cut just before later cuts. */
  lemma CutsCons(text: String, i: nat, qs: seq<nat>)
    requires i < |text| && Cuts(text, i + 1, qs)
    ensures Cuts(text, i, [i] + qs)
  {
    assert ([i] + qs)[1..] == qs;
  }

  /** Cutting at a first position `i` right where the text starts leaves the prefix as the first
      piece. */
  lemma CutFromAtStart(text: String, i: nat, pre: String, qs: seq<nat>)
    requires i < |text| && Cuts(text, i + 1, qs)
    ensures Cuts(text, i, [i] + qs)
    ensures CutFrom(text, i, pre, [i] + qs) == [pre] + CutFrom(text, i + 1, [], qs)
  {
    CutsCons(text, i, qs);
    var q := [i] + qs;
    assert q[0] == i && q[1..] == qs;
    assert pre + text[i..i] == pre;
  }

  /** A plain delimiter within budget: the open part is closed and the next one starts empty. */
  lemma SplitCase(text: String, i: nat, parts: seq<String>, pre: String, qs: seq<nat>, rest: seq<String>)
    requires i < |text| && Cuts(text, i + 1, qs)
    requires rest == parts + [pre] + CutFrom(text, i + 1, [], qs)
    ensures Cuts(text, i, [i] + qs)
    ensures rest == parts + CutFrom(text, i, pre, [i] + qs)
  {
    CutFromAtStart(text, i, pre, qs);
  }

  /** A plain delimiter once the budget is spent: nothing is cut any more. */
  lemma NoSplitCase(text: String, i: nat, parts: seq<String>, pre: String, rest: seq<String>)
    requires i < |text|
    requires rest == parts + CutFrom(text, i + 1, pre + [text[i]], [])
    ensures Cuts(text, i, [])
    ensures rest == parts + CutFrom(text, i, pre, [])
  {
    assert text[i..] == [text[i]] + text[i + 1..];
    assert pre + text[i..] == pre + [text[i]] + text[i + 1..];
  }

  /** Any other step: the consumed characters move from the text into the open part. */
  lemma ShiftCase(text: String, i: nat, i': nat, parts: seq<String>, pre: String, pre': String,
                  ps: seq<nat>, rest: seq<String>)
    requires i <= i' <= |text| && pre' == pre + text[i..i'] && Cuts(text, i', ps)
    requires rest == parts + CutFrom(text, i', pre', ps)
    ensures Cuts(text, i, ps)
    ensures rest == parts + CutFrom(text, i, pre, ps)
  {
    CutFromShift(text, i, pre, ps, i' - i);
  }

  /** The split is the text cut at its first `Budget(maxSplits, 0, _)` plain delimiters. */
  lemma SplitIsCutAtPlainDelims(text: String, delim: char, maxSplits: int)
    ensures var ps := PlainDelims(text, delim);
            var k := Budget(maxSplits, 0, |ps|);
            Cuts(text, 0, ps[..k])
            && Split(text, delim, maxSplits) == CutFrom(text, 0, [], ps[..k])
  {
    RunIsCut(text, delim, maxSplits, Start);
    assert RunCutsAt(text, delim, maxSplits, Start);
  }
}

=== FILE: strings.dfy ===
/** The Python string primitives the parser leans on: `str.strip()`, `startswith`/`endswith`,
    slicing with negative indices, and `sep.join(parts)`. */
module Strings {

  type String = seq<char>

  /** The triple-backtick marker that fences a code column. */
  const Fence: String := "```"

  /** A fence marker starts at `i`: three backticks in a row. */
  predicate FenceAt(text: String, i: nat) {
    i + 3 <= |text| && text[i] == '`' && text[i + 1] == '`' && text[i + 2] == '`'
  }

  /** `FenceAt` is Python's `text[i:i+3] == '```'`: a slice that runs past the end is shorter, so
      it is never equal. */
  lemma FenceAtSlice(text: String, i: nat)
    ensures FenceAt(text, i) <==> i + 3 <= |text| && text[i..i + 3] == Fence
  {
    if i + 3 <= |text| {
      assert text[i..i + 3][0] == text[i] && text[i..i + 3][1] == text[i + 1] && text[i..i + 3][2] == text[i + 2];
    }
  }

  /** The characters Python's `str.isspace()` (and so the no-argument `str.strip()`) treats as
      whitespace: the ASCII controls 9-13 and 28-31, the space, and the Unicode space separators. */
  predicate IsSpace(c: char) {
    || ('\t' <= c <= '\r')
    || ('\U{1C}' <= c <= ' ')
    || c == '\U{85}' || c == '\U{A0}' || c == '\U{1680}'
    || ('\U{2000}' <= c <= '\U{200A}')
    || c == '\U{2028}' || c == '\U{2029}' || c == '\U{202F}' || c == '\U{205F}' || c == '\U{3000}'
  }

  predicate AllSpace(s: String) {
    forall j :: 0 <= j < |s| ==> IsSpace(s[j])
  }

  /** `s` neither begins nor ends with whitespace. */
  predicate IsStripped(s: String) {
    |s| == 0 || (!IsSpace(s[0]) && !IsSpace(s[|s| - 1]))
  }

  /** Number of whitespace characters at the start of `s`. */
  function LeadingSpaces(s: String): (n: nat)
    ensures n <= |s|
    ensures AllSpace(s[..n])
    ensures n == |s| || !IsSpace(s[n])
  {
    if |s| == 0 || !IsSpace(s[0]) then 0
    else
      var n := 1 + LeadingSpaces(s[1..]);
      assert forall j :: 1 <= j < n ==> s[j] == s[1..][j - 1];
      n
  }

  /** Number of whitespace characters at the end of `s`. */
  function TrailingSpaces(s: String): (n: nat)
    ensures n <= |s|
    ensures AllSpace(s[|s| - n..])
    ensures n == |s| || !IsSpace(s[|s| - n - 1])
  {
    if |s| == 0 || !IsSpace(s[|s| - 1]) then 0
    else
      var n := 1 + TrailingSpaces(s[..|s| - 1]);
      assert s[|s| - n..] == s[..|s| - 1][|s| - n..] + [s[|s| - 1]];
      n
  }

  /** Python's `s.strip()`: the longest run of `s` that starts after the leading whitespace and
      leaves only whitespace behind it. */
  function Strip(s: String): (r: String)
    ensures IsStripped(r)
    ensures LeadingSpaces(s) + |r| <= |s|
    ensures r == s[LeadingSpaces(s)..LeadingSpaces(s) + |r|]
    ensures AllSpace(s[LeadingSpaces(s) + |r|..])
  {
    var a := LeadingSpaces(s);
    var t := s[a..];
    var b := TrailingSpaces(t);
    if b == |t| then [] else t[..|t| - b]
  }

  /** Strip takes off exactly the whitespace padding around an already stripped value. */
  lemma StripPadded(pre: String, x: String, post: String)
    requires AllSpace(pre) && AllSpace(post) && IsStripped(x)
    ensures Strip(pre + x + post) == x
  {
    var s := pre + x + post;
    if |x| == 0 {
      assert s == pre + post;
      assert AllSpace(s) by {
        forall j | 0 <= j < |s| ensures IsSpace(s[j]) {
          if j < |pre| { assert s[j] == pre[j]; } else { assert s[j] == post[j - |pre|]; }
        }
      }
      assert LeadingSpaces(s) == |s|;
    } else {
      PaddedLead(pre, x, post);
      PaddedLength(pre, x, post);
      assert s[|pre|..|pre| + |x|] == x;
    }
  }

  /** The leading whitespace of a padded value is exactly its front padding. */
  lemma PaddedLead(pre: String, x: String, post: String)
    requires AllSpace(pre) && |x| > 0 && !IsSpace(x[0])
    ensures LeadingSpaces(pre + x + post) == |pre|
  {
    var s := pre + x + post;
    assert s[|pre|] == x[0];
  }

  /** What Strip keeps of a padded value is as long as the value. */
  lemma PaddedLength(pre: String, x: String, post: String)
    requires AllSpace(pre) && AllSpace(post) && IsStripped(x) && |x| > 0
    requires LeadingSpaces(pre + x + post) == |pre|
    ensures |Strip(pre + x + post)| == |x|
  {
    var s := pre + x + post;
    var r := Strip(s);
    var a := |pre|;
    assert s[a + |x| - 1] == x[|x| - 1];
  }

  /** Stripping a stripped value leaves it alone, so stripping twice is stripping once. */
  lemma StripStripped(s: String)
    requires IsStripped(s)
    ensures Strip(s) == s
  {
    StripPadded([], s, []);
    assert [] + s + [] == s;
  }

  predicate StartsWith(s: String, prefix: String) {
    |prefix| <= |s| && s[..|prefix|] == prefix
  }

  predicate EndsWith(s: String, suffix: String) {
    |suffix| <= |s| && s[|s| - |suffix|..] == suffix
  }

  /** Where a Python slice bound `x` lands in a string of length `n`: negative bounds count
      from the end, and both kinds are clamped into `0..n`. */
  function SliceBound(n: nat, x: int): (k: nat)
    ensures k <= n
    ensures 0 <= x <= n ==> k == x
    ensures -(n as int) <= x < 0 ==> k == n + x
  {
    if x < 0 then (if x + n < 0 then 0 else x + n)
    else if x > n then n
    else x
  }

  /** Python's `s[start:stop]`. */
  function PySlice(s: String, start: int, stop: int): (r: String)
    ensures |r| <= |s|
  {
    var a := SliceBound(|s|, start);
    var b := SliceBound(|s|, stop);
    if a < b then s[a..b] else []
  }

  /** Python's `s[k:-k]` for `k >= 1`: the middle of `s` without `k` characters at either end,
      and the empty string once the two ends meet or cross. */
  function DropEnds(s: String, k: nat): (r: String)
    requires k >= 1
    ensures 2 * k <= |s| ==> r == s[k..|s| - k]
    ensures 2 * k >= |s| ==> r == []
  {
    PySlice(s, k, -(k as int))
  }

  /** Python's `sep.join(parts)`. */
  function JoinWith(parts: seq<String>, sep: String): (r: String)
    ensures |parts| == 1 ==> r == parts[0]
    ensures |parts| == 0 ==> r == []
  {
    if |parts| == 0 then []
    else if |parts| == 1 then parts[0]
    else parts[0] + sep + JoinWith(parts[1..], sep)
  }

  /** Adding one more part to a join adds one separator and the part. */
  lemma {:induction false} JoinSnoc(parts: seq<String>, x: String, sep: String)
    requires |parts| > 0
    ensures JoinWith(parts + [x], sep) == JoinWith(parts, sep) + sep + x
    decreases |parts|
  {
    if |parts| == 1 {
      assert parts + [x] == [parts[0], x];
      assert [parts[0], x][1..] == [x];
    } else {
      assert (parts + [x])[1..] == parts[1..] + [x];
      JoinSnoc(parts[1..], x, sep);
    }
  }

  /** Extending the last part of a join extends the joined text by the same characters. */
  lemma JoinExtendLast(parts: seq<String>, last: String, more: String, sep: String)
    ensures JoinWith(parts + [last + more], sep) == JoinWith(parts + [last], sep) + more
  {
    if |parts| > 0 {
      JoinSnoc(parts, last + more, sep);
      JoinSnoc(parts, last, sep);
    } else {
      assert parts + [last + more] == [last + more];
      assert parts + [last] == [last];
    }
  }

  /** Joining `[x] + rest` puts `x` in front of the join of `rest`. */
  lemma JoinCons(x: String, rest: seq<String>, sep: String)
    requires |rest| > 0
    ensures JoinWith([x] + rest, sep) == x + sep + JoinWith(rest, sep)
  {
    assert ([x] + rest)[1..] == rest;
  }

  /** Regrouping a concatenation, stated once so proofs can cite it instead of searching for it. */
  lemma Assoc<T>(a: seq<T>, b: seq<T>, c: seq<T>)
    ensures a + b + c == a + (b + c)
  {
  }
}

=== FILE: wrappers.dfy ===
/** The optional result used where the parser returns `None` in place of a record. */
module Wrappers {

  datatype Option<+T> = None | Some(value: T)
}
